=== FILE: README.md ===
# Breaker.Helpers in Dafny

A model of the helper library Breaker.Helpers, with proofs about it. The
library holds small extension methods on integers, dates, paths, strings,
booleans and HTTP requests, plus an ASP.NET Core middleware. The middleware
writes the cookie service's cookies when the response starts, unless the
status is a server error.

Modules, one per source file, plus three shared ones:

- `Wrappers`: `Option`, standing for C# `null` results.
- `Strings`: the parts of `System.String` and `System.Char` the helpers rely
  on (`char.IsWhiteSpace`, ordinal `StartsWith`/`EndsWith`, `Replace`, ASCII
  case-insensitive equality, `Split(':').FirstOrDefault()`). A Dafny `string`
  is a sequence of Unicode scalar values, while a .NET string is a sequence
  of UTF-16 code units. `CodeUnit` and `ToUtf16` model the code units, and
  `StringExtensions.Truncate` works on them because its result depends on
  lengths. The other helpers test equality and prefixes, and search for and
  split at characters below U+10000. On well-formed text these give the same
  answers whether a string is read as characters or as UTF-16 code units, so
  they are stated over characters.
- `Calendar`: `System.DateTime` over the proleptic Gregorian calendar of
  years 1..9999. An instant is a day number (0 is 0001-01-01, a Monday) plus
  a tick of that day (100 ns units). `DayOfWeek` is `(day + 1) % 7`, with
  Sunday as 0. The day number of a date is a closed-form day count
  for whole years plus cumulative month tables; the way back searches for the
  year and month with that count, rather than splitting the day number into
  400-, 100-, 4- and 1-year cycles as .NET does, and round-trip lemmas show
  the two directions agree. `AddYears` clamps
  February 29th, `AddMonths` clamps the day to the new month's length, and
  times of day are kept.
- `IntegerExtensions`, `DateTimeExtensions`, `PathHelper`, `StringExtensions`,
  `BooleanExtensions`, `HttpRequestExtensions`, `CookieServiceMiddleware`.

Each model is a pure function. .NET throws `ArgumentOutOfRangeException`
when date arithmetic leaves 0001-01-01 .. 9999-12-31, and when `Substring`
gets a negative length. These cases are preconditions. Because of them:

- `EndOfDay` of the last day has no value;
- `EndOfMonth` of December 9999 and `EndOfYear` of 9999 have none;
- `NextWeekDay` of Friday 9999-12-31 has none;
- `PreviousWeekDay` of Monday 0001-01-01 has none.

An HTTP request is a record of four things:

- the scheme;
- the host, as `Host.Value` gives it;
- the headers, in enumeration order;
- the remote address, as text when there is one.

The cookie middleware is a state machine over an immutable exchange record:

- the status;
- whether the response has started;
- how many start callbacks are registered (the server keeps and runs every
  registration, so a middleware added twice registers twice);
- a trace of events.

The next handler is the sequence of status changes and response starts it
performs. `ICookieService.WriteToResponse` is a `CookiesWritten` event. The
start callbacks run before the response counts as started. `Invoke` on a
response that has already started gives None, standing for the
`InvalidOperationException` of `OnStarting`.

`Serve` models the server around the pipeline, as Kestrel behaves. A
pipeline that returns normally without starting the response has it started
by the server, which runs the start callbacks. A pipeline that throws gets no
callbacks from the server.

## Model

| member | source | states |
|---|---|---|
| IntegerExtensions.IsInRange | Breaker.Helpers/Extensions/IntegerExtensions.cs:23-31 | with ordered bounds, true iff the value lies between them inclusive; with reversed bounds, the same test with the bounds swapped |
| IntegerExtensions.InRangeIsMinMax | Breaker.Helpers/Extensions/IntegerExtensions.cs:23-31 | the test is `min(a,b) <= x <= max(a,b)` |
| IntegerExtensions.InRangeSymmetric | Breaker.Helpers/Extensions/IntegerExtensions.cs:26-30 | swapping the two bounds never changes the answer |
| IntegerExtensions.InRangeBoundsInclusive | Breaker.Helpers/Extensions/IntegerExtensions.cs:26-30 | both bounds are inside the range |
| IntegerExtensions.InRangeDegenerate | Breaker.Helpers/Extensions/IntegerExtensions.cs:26-27 | a range with equal bounds holds exactly that value |
| DateTimeExtensions.Age | Breaker.Helpers/Extensions/DateTimeExtensions.cs:23-36 | never negative; 0 when the later year is not after the birth year; otherwise the year difference or one less |
| DateTimeExtensions.AgeByAnniversary | Breaker.Helpers/Extensions/DateTimeExtensions.cs:26-29 | for a later year, the age is the year difference when the anniversary from `AddYears` is on or before the later date, one less otherwise |
| DateTimeExtensions.AgeBirthdayRule | Breaker.Helpers/Extensions/DateTimeExtensions.cs:26-29 | the age is one less than the year difference iff the later date's month and day come before the birthday; a February 29th birthday counts as February 28th in a common year |
| DateTimeExtensions.AgeCountsAnniversaries | Breaker.Helpers/Extensions/DateTimeExtensions.cs:26-34 | for every k >= 1, the age is at least k iff the k-th anniversary is on or before the later date |
| DateTimeExtensions.IsWeekend | Breaker.Helpers/Extensions/DateTimeExtensions.cs:43-46 | true exactly on Saturdays and Sundays |
| DateTimeExtensions.IsWeekDay | Breaker.Helpers/Extensions/DateTimeExtensions.cs:53-56 | true exactly on Monday through Friday, the negation of IsWeekend |
| DateTimeExtensions.StartOfDay | Breaker.Helpers/Extensions/DateTimeExtensions.cs:74-78 | midnight of the same date, not after the instant and less than a day before it |
| DateTimeExtensions.EndOfDay | Breaker.Helpers/Extensions/DateTimeExtensions.cs:63-67 | the last tick of the same date, one tick before the next midnight, not before the instant |
| DateTimeExtensions.StartOfMonth | Breaker.Helpers/Extensions/DateTimeExtensions.cs:85-88 | midnight on day 1 of the instant's year and month, that day's distance being the day of month less one |
| DateTimeExtensions.EndOfMonth | Breaker.Helpers/Extensions/DateTimeExtensions.cs:95-98 | the last tick of the month's last day, with the month length from the Gregorian table, and not before the instant |
| DateTimeExtensions.FirstOfNextMonth | Breaker.Helpers/Extensions/DateTimeExtensions.cs:97 | the start of the month after `AddMonths(1)` is the day after the last day of the current month |
| DateTimeExtensions.StartOfYear | Breaker.Helpers/Extensions/DateTimeExtensions.cs:105-108 | midnight on January 1st of the instant's year, not after the instant's day |
| DateTimeExtensions.EndOfYear | Breaker.Helpers/Extensions/DateTimeExtensions.cs:115-118 | the last tick of December 31st of the instant's year, not before the instant |
| DateTimeExtensions.WeekEnd | Breaker.Helpers/Extensions/DateTimeExtensions.cs:155-159 | the last day of a week is the day before its first, Sunday wrapping round to Saturday |
| DateTimeExtensions.StartOfWeek | Breaker.Helpers/Extensions/DateTimeExtensions.cs:126-144 | midnight, on the requested start day, 0 to 6 days before the instant's date: exactly the distance of the instant's day of week from the start day |
| DateTimeExtensions.StartOfWeekIsLatest | Breaker.Helpers/Extensions/DateTimeExtensions.cs:126-144 | no day after the start of the week, up to the instant's date, falls on the start day |
| DateTimeExtensions.EndOfWeek | Breaker.Helpers/Extensions/DateTimeExtensions.cs:152-174 | midnight, on the day before the start day, 0 to 6 days on or after the instant's date |
| DateTimeExtensions.EndOfWeekIsEarliest | Breaker.Helpers/Extensions/DateTimeExtensions.cs:152-174 | no day from the instant's date up to the end of the week falls on the week's last day |
| DateTimeExtensions.WeekSpansSixDays | Breaker.Helpers/Extensions/DateTimeExtensions.cs:126-174 | EndOfWeek is exactly six days after StartOfWeek, for every start day |
| DateTimeExtensions.WeekDefaultsToSunday | Breaker.Helpers/Extensions/DateTimeExtensions.cs:126-152 | without a start day, StartOfWeek lands on a Sunday and EndOfWeek on a Saturday |
| DateTimeExtensions.NextWeekDay | Breaker.Helpers/Extensions/DateTimeExtensions.cs:191-206 | 1 to 3 whole days later, same time of day, on Monday to Friday, every day skipped being a weekend day |
| DateTimeExtensions.PreviousWeekDay | Breaker.Helpers/Extensions/DateTimeExtensions.cs:213-228 | 1 to 3 whole days earlier, same time of day, on Monday to Friday, every day skipped being a weekend day |
| Calendar.AddYears | Breaker.Helpers/Extensions/DateTimeExtensions.cs:29 | the anniversary used by Age: same month, year moved by k, day clamped to the month's length, time kept |
| Calendar.AddMonths | Breaker.Helpers/Extensions/DateTimeExtensions.cs:97 | the month count moves by k, the day is clamped to the new month's length, the time is kept |
| Calendar.ToDateOfDayOf | Breaker.Helpers/Extensions/DateTimeExtensions.cs:87 | `new DateTime(y, m, d)` read back through `Year`, `Month` and `Day` gives the same date |
| Calendar.DayOfOrder | Breaker.Helpers/Extensions/DateTimeExtensions.cs:29 | comparing dates compares year, then month, then day |
| PathHelper.EnsureTrailingSlash | Breaker.Helpers/PathHelper.cs:7-13 | a blank path comes back unchanged; otherwise the result ends with the chosen separator and is the path or the path plus one separator |
| PathHelper.EnsureTrailingSlashDefault | Breaker.Helpers/PathHelper.cs:7 | without a direction the separator is a backslash: `C:\temp` becomes `C:\temp\`, which stays as it is, and a blank path is unchanged |
| PathHelper.EnsureTrailingSlashAppends | Breaker.Helpers/PathHelper.cs:9-12 | a separator is appended iff the path is not blank and does not already end with it |
| PathHelper.EnsureTrailingSlashIdempotent | Breaker.Helpers/PathHelper.cs:11 | applying it twice is applying it once |
| PathHelper.RemoveRoot | Breaker.Helpers/PathHelper.cs:15-20 | a blank root removes nothing; a path not starting with the root comes back unchanged; otherwise root plus result is the path |
| PathHelper.RemoveRootOfPrefixed | Breaker.Helpers/PathHelper.cs:18-19 | removing a non-blank root from root plus rest gives rest: one leading copy is removed, no more |
| PathHelper.SetSlashDirection | Breaker.Helpers/PathHelper.cs:22-39 | a blank path comes back unchanged; length is kept; each separator of the other direction becomes the chosen one and every other character stays |
| PathHelper.SetSlashDirectionLeavesNoOtherSlash | Breaker.Helpers/PathHelper.cs:28-38 | after Back no `/` remains, after Forward no `\` |
| PathHelper.SetSlashDirectionIdempotent | Breaker.Helpers/PathHelper.cs:28-38 | setting the same direction twice is setting it once |
| PathHelper.SetSlashDirectionLastWins | Breaker.Helpers/PathHelper.cs:28-38 | setting one direction and then another equals setting only the second |
| Strings.EncodeChar | Breaker.Helpers/Extensions/StringExtensions.cs:7 | a character below U+10000 is one code unit; any other is a high surrogate then a low surrogate from which it can be computed back |
| Strings.ToUtf16 | Breaker.Helpers/Extensions/StringExtensions.cs:7 | a string has at least as many code units as characters, and the same values position by position when every character is below U+10000 |
| StringExtensions.Truncate | Breaker.Helpers/Extensions/StringExtensions.cs:5-8 | lengths in UTF-16 code units: a value within the limit comes back unchanged; a longer one becomes exactly `maxChars` long, ends with the suffix and begins with the value's first `maxChars - suffix.Length` code units; a cut without room for the suffix is excluded |
| StringExtensions.TruncateShape | Breaker.Helpers/Extensions/StringExtensions.cs:7 | the result is no longer than the longer of value and limit, and is the value or a prefix of it plus the suffix |
| StringExtensions.TruncateIdempotent | Breaker.Helpers/Extensions/StringExtensions.cs:7 | with room for the suffix, the result fits the limit and truncating it again changes nothing |
| StringExtensions.TruncateKeepsPrefix | Breaker.Helpers/Extensions/StringExtensions.cs:7 | every code unit before the suffix is the value's code unit at the same position |
| StringExtensions.TruncateDefaultSuffix | Breaker.Helpers/Extensions/StringExtensions.cs:5 | without a suffix argument, "..." is used: "abcdef" cut to five is "ab..." |
| StringExtensions.TruncateSplitsSurrogatePair | Breaker.Helpers/Extensions/StringExtensions.cs:7 | a character above U+FFFF counts as two: "a" followed by U+1F600 cut to two keeps "a" and a lone high surrogate |
| Strings.Replace | Breaker.Helpers/Extensions/BooleanExtensions.cs:16 | a string without the old value is unchanged; one starting with it starts with the new value |
| Strings.ReplaceLeftmost | Breaker.Helpers/Extensions/BooleanExtensions.cs:16 | scanning from the left, the text before the first occurrence is copied, that occurrence becomes the new value, and the scan resumes after it: every non-overlapping occurrence is replaced |
| BooleanExtensions.ToHuman | Breaker.Helpers/Extensions/BooleanExtensions.cs:14-17 | "Yes" for true and "No" for false, through the two Replace calls on `bool.ToString()` |
| BooleanExtensions.ToHumanInjective | Breaker.Helpers/Extensions/BooleanExtensions.cs:14-17 | different booleans give different text |
| BooleanExtensions.ToHumanHasNoBooleanWords | Breaker.Helpers/Extensions/BooleanExtensions.cs:16 | the result contains neither "True" nor "False" |
| HttpRequestExtensions.GetFullHostingUrlRoot | Breaker.Helpers/Extensions/HttpRequestExtensions.cs:13-16 | the result starts with the scheme and `://`, ends with the host, and has no other characters |
| HttpRequestExtensions.HostingUrlRootSplits | Breaker.Helpers/Extensions/HttpRequestExtensions.cs:15 | for a scheme without a colon, the scheme is the text before the first colon and the host the text after `://` |
| HttpRequestExtensions.FindHeader | Breaker.Helpers/Extensions/HttpRequestExtensions.cs:20 | the position of the first header whose name equals the key exactly (ordinal), or none when no header has that name |
| HttpRequestExtensions.GetHeader | Breaker.Helpers/Extensions/HttpRequestExtensions.cs:18-21 | the first value of the first header named exactly `key`; null when that header has no values or no header has the name |
| HttpRequestExtensions.GetHeaderFirstWins | Breaker.Helpers/Extensions/HttpRequestExtensions.cs:20 | headers after the first one with the name never change the result |
| HttpRequestExtensions.HeaderValues | Breaker.Helpers/Extensions/HttpRequestExtensions.cs:40 | the indexer gives the values of the first header whose name matches ignoring case, and no values when none matches |
| HttpRequestExtensions.CandidateAddress | Breaker.Helpers/Extensions/HttpRequestExtensions.cs:30-47 | the first forwarded value when the header is neither null nor empty and that value is not empty; else the remote address if there is one; else empty |
| HttpRequestExtensions.NormalizeAddress | Breaker.Helpers/Extensions/HttpRequestExtensions.cs:54-60 | `::1` becomes `127.0.0.1`; any other address is cut at its first colon; the result holds no colon |
| HttpRequestExtensions.GetIPAddress | Breaker.Helpers/Extensions/HttpRequestExtensions.cs:28-63 | the result holds no colon and is a prefix of the chosen address, or the IPv4 loopback |
| HttpRequestExtensions.LoopbackIsExact | Breaker.Helpers/Extensions/HttpRequestExtensions.cs:55 | with case ignored for ASCII letters only, comparing with `::1` is plain equality |
| HttpRequestExtensions.GetIPAddressForwarded | Breaker.Helpers/Extensions/HttpRequestExtensions.cs:38-42 | a non-empty forwarded value other than `::1` is returned up to its first colon |
| HttpRequestExtensions.GetIPAddressRemote | Breaker.Helpers/Extensions/HttpRequestExtensions.cs:46-47 | with no usable forwarded value, the remote address is returned up to its first colon |
| HttpRequestExtensions.GetIPAddressNone | Breaker.Helpers/Extensions/HttpRequestExtensions.cs:30-47 | with neither a forwarded value nor a remote address the result is empty |
| HttpRequestExtensions.GetIPAddressLoopback | Breaker.Helpers/Extensions/HttpRequestExtensions.cs:55-56 | `::1` from either source reads as `127.0.0.1` |
| HttpRequestExtensions.ForwardedHeaderIgnoresCase | Breaker.Helpers/Extensions/HttpRequestExtensions.cs:38-42 | a lower-case `x-forwarded-for` header of `10.0.0.7:8080` gives `10.0.0.7` |
| HttpRequestExtensions.IPv6RemoteAddressIsCut | Breaker.Helpers/Extensions/HttpRequestExtensions.cs:58-60 | the port removal also cuts an IPv6 remote address: `2001:db8::1` reads as `2001` |
| Strings.BeforeFirst | Breaker.Helpers/Extensions/HttpRequestExtensions.cs:60 | the result is a prefix of the input without the separator, ending where the input ends or at its first separator |
| Strings.BeforeFirstAt | Breaker.Helpers/Extensions/HttpRequestExtensions.cs:60 | when position k holds the first separator, the result is the k characters before it |
| CookieServiceMiddleware.WritesCookiesOutsideRange | Breaker.Helpers/Cookies/CookieServiceMiddleware.cs:27 | cookies are written iff the status is below 500 or above 599 |
| CookieServiceMiddleware.Register | Breaker.Helpers/Cookies/CookieServiceMiddleware.cs:24-31 | registering adds one callback to those already registered and leaves status and start flag alone |
| CookieServiceMiddleware.RunCallbacks | Breaker.Helpers/Cookies/CookieServiceMiddleware.cs:24-31 | at the start, each registered copy of the callback writes the cookies once when the status is outside 500..599, and none writes otherwise; nothing else changes |
| CookieServiceMiddleware.OnStarting | Breaker.Helpers/Cookies/CookieServiceMiddleware.cs:24-31 | the callback adds one cookie write iff the current status is outside 500..599, and changes nothing else |
| CookieServiceMiddleware.Invoke | Breaker.Helpers/Cookies/CookieServiceMiddleware.cs:21-35 | fails (`OnStarting` throws) exactly when the response has already started; otherwise the callback is registered before the next handler is invoked, and the trace continues with registration, then the call to the next handler |
| CookieServiceMiddleware.RunHandlerWrites | Breaker.Helpers/Cookies/CookieServiceMiddleware.cs:24-34 | the downstream handler causes one cookie write per registered callback if the status at the first response start is outside 500..599, and none otherwise |
| CookieServiceMiddleware.NoWritesOnceStarted | Breaker.Helpers/Cookies/CookieServiceMiddleware.cs:24-31 | after the response has started nothing more happens: the callback runs at most once |
| CookieServiceMiddleware.InvokeWritesCookies | Breaker.Helpers/Cookies/CookieServiceMiddleware.cs:21-35 | while the pipeline runs, cookies are written once per registered callback (once, with no earlier registration) iff the handler starts the response with a status outside 500..599, and otherwise not at all |
| CookieServiceMiddleware.LastStatus | Breaker.Helpers/Cookies/CookieServiceMiddleware.cs:27 | the code of the last status change among the actions, or the initial status when there is none |
| CookieServiceMiddleware.StatusAtCallback | Breaker.Helpers/Cookies/CookieServiceMiddleware.cs:24-27 | the status the callback sees: the one at the handler's first start; when the handler never starts the response and returns normally, the one it leaves; none when the callbacks never run |
| CookieServiceMiddleware.NeverStartedLeavesStatus | Breaker.Helpers/Cookies/CookieServiceMiddleware.cs:34 | a handler that never starts the response leaves it unstarted, with the last status it set |
| CookieServiceMiddleware.HandlerStarts | Breaker.Helpers/Cookies/CookieServiceMiddleware.cs:34 | a handler that starts the response leaves it started |
| CookieServiceMiddleware.Serve | Breaker.Helpers/Cookies/CookieServiceMiddleware.cs:21-35 | an already started response is left alone; after a normal return the response is always started |
| CookieServiceMiddleware.ServeWritesCookies | Breaker.Helpers/Cookies/CookieServiceMiddleware.cs:21-35 | end to end with the server, cookies are written once per registered callback (once, with no earlier registration) iff the start callbacks run with a status outside 500..599, and never otherwise; a pipeline that returns normally always has its callbacks run |
| CookieServiceMiddleware.InvokeCallsNextOnce | Breaker.Helpers/Cookies/CookieServiceMiddleware.cs:34 | the next handler is invoked exactly once |
| CookieServiceMiddleware.StatusAtStartIsLastBefore | Breaker.Helpers/Cookies/CookieServiceMiddleware.cs:24-34 | for every handler, the status the callback sees at the first response start is the last status set before that start, or the initial status when none was set |
| CookieServiceMiddleware.StatusAtCallbackTimeDecides | Breaker.Helpers/Cookies/CookieServiceMiddleware.cs:27 | four concrete handlers in which the status set last before the start decides, not one set first or after the start; with no start by the handler, the last status set decides |
| CookieServiceMiddleware.StatusScenarios | Breaker.Helpers/Cookies/CookieServiceMiddleware.cs:24-34 | 200 and 404 write cookies; 500, 503 and 599 do not; a handler that sets 404 and returns gets its write when the server starts the response, and none when it throws; on a started response the middleware throws |
| CookieServiceMiddleware.DoubleRegistrationWritesTwice | Breaker.Helpers/Cookies/CookieServiceMiddleware.cs:24-34 | with the middleware added twice, two start callbacks are registered and the cookies are written twice |

## Left out

- `IntegerExtensions.BytesToString` and `DateTimeExtensions.MillisecondsSince1970`: floating point and culture-dependent formatting.
- The one-argument `DateTimeExtensions.Age(birthDate)`: it reads the clock (`DateTime.Today`). Only the two-argument form is modelled.
- `HttpRequestExtensions.GetRawBodyStringAsync`, `GetRawBodyBytesAsync` and `GetUserAgent`: asynchronous stream I/O and text decoding, and a header read outside the modelled helpers.
- `ExceptionHelper`, `EnumExtensions`, `ImageExtensions` and the Google geocoding files are not part of this model: HTML templating, reflection, image decoding and a network client.
- `CookieServiceMiddlewareExtensions.UseCookieService` and the async pipeline: registration with the application builder. The cookie service is hidden, so its `WriteToResponse` is one trace event.
- C# `null` strings are not modelled; `Option` stands for a null result. Only `Truncate` counts UTF-16 code units, as .NET does.
- `DateTime.Kind` and the time zone are not modelled; only the tick count is.
- DateTimeExtensions.EndOfDay: where .NET throws `ArgumentOutOfRangeException` (past 9999-12-31 23:59:59.9999999), the model has a precondition. The same holds for `EndOfMonth`, `EndOfYear`, `StartOfWeek`, `EndOfWeek`, `NextWeekDay`, `PreviousWeekDay` and `Calendar.AddYears`/`AddMonths`/`AddDays`/`AddTicks`.
- DateTimeExtensions.StartOfWeek: a `DayOfWeek` outside 0..6 (C# allows casting any integer to the enum) is excluded by the type.
- StringExtensions.Truncate: the `ArgumentOutOfRangeException` of a cut with no room for the suffix, including a negative `maxChars`, is a precondition.
- PathHelper.EnsureTrailingSlash: `string.EndsWith(string)` compares culture-sensitively in .NET. The model compares ordinally, which can differ only for text ending in characters the culture ignores.
- PathHelper.RemoveRoot: the `Regex.Escape` pattern is modelled as the literal prefix it matches. Regex timeouts are not modelled.
- HttpRequestExtensions.GetIPAddress: the catch-all that returns the empty string on any exception is not modelled, because no modelled step throws. A null first forwarded value is not modelled either.
- HttpRequestExtensions.HeaderValues: header names are compared ignoring ASCII case only, not full Unicode case folding.
- HttpRequestExtensions.LoopbackIsExact: `InvariantCultureIgnoreCase` is a culture-aware comparison that also skips characters with no collation weight, such as U+00AD, so .NET also reads `::1` followed by such a character as the loopback. The model folds ASCII case only, so for it the comparison is plain equality.
- HttpRequestExtensions.NormalizeAddress: for the same reason, `::1` followed by a character the culture ignores gives `127.0.0.1` in .NET but the empty text (cut at the first colon) in the model.
- CookieServiceMiddleware.Serve: the server's own response after a failed pipeline (a 500 with no body, or an aborted connection once the response has started) is not modelled; only the fact that it runs no start callbacks is. Other servers are assumed to behave as Kestrel does.
- CookieServiceMiddleware.Step: ASP.NET throws when a handler sets the status after the response has started. The model ignores such a change, because the status the callback saw is what matters here.

=== FILE: boolean_extensions.dfy ===
/** BooleanExtensions.ToHuman: "Yes" or "No" for a boolean, obtained by
    rewriting the words of `bool.ToString()`. */
module BooleanExtensions {
  import opened Strings

  /** `bool.ToString()`: Boolean.TrueString and Boolean.FalseString. */
  function BoolToString(b: bool): (s: string)
    ensures |s| >= 4
  {
    if b then "True" else "False"
  }

  /** `val.ToString().Replace("False", "No").Replace("True", "Yes")`. */
  function ToHuman(val: bool): (r: string)
    ensures r == (if val then "Yes" else "No")
  {
    var s := BoolToString(val);
    var first := Replace(s, "False", "No");
    if val then
      assert first == "True";
      assert "True"[..4] == "True";
      Replace(first, "True", "Yes")
    else
      assert "False"[..5] == "False";
      assert first == "No";
      Replace(first, "True", "Yes")
  }

  /** Different booleans read differently. */
  lemma ToHumanInjective(a: bool, b: bool)
    ensures ToHuman(a) == ToHuman(b) <==> a == b
  {
    if a != b {
      assert ToHuman(a)[0] != ToHuman(b)[0];
    }
  }

  /** The words of `bool.ToString()` never survive into the result. */
  lemma ToHumanHasNoBooleanWords(val: bool)
    ensures !Contains(ToHuman(val), "True") && !Contains(ToHuman(val), "False")
  {
  }
}

=== FILE: calendar.dfy ===
/** The parts of System.DateTime that the date helpers use, over the proleptic
    Gregorian calendar of years 1..9999.

    An instant is a day number (0 is 0001-01-01, a Monday) and a tick of that
    day (a tick is 100 ns). Arithmetic that would leave 0001-01-01 00:00:00 ..
    9999-12-31 23:59:59.9999999 throws ArgumentOutOfRangeException in .NET;
    here it is a precondition. */
module Calendar {

  const TicksPerDay: int := 864_000_000_000
  const MaxYear: int := 9999
  /** Days from 0001-01-01 to 10000-01-01: one past the last day number. */
  const DaysTo10000: int := 3_652_059

  type DayNumber = d: int | 0 <= d < DaysTo10000
  type TickOfDay = t: int | 0 <= t < TicksPerDay

  datatype DateTime = DateTime(day: DayNumber, tick: TickOfDay)

  /** System.DayOfWeek: Sunday = 0 .. Saturday = 6. */
  type DayOfWeek = d: int | 0 <= d < 7

  const Sunday: DayOfWeek := 0
  const Monday: DayOfWeek := 1
  const Friday: DayOfWeek := 5
  const Saturday: DayOfWeek := 6

  /** A calendar date: year, month 1..12, day of month. */
  datatype Date = Date(year: int, month: int, day: int)

  // ---------------------------------------------------------------------
  // Gregorian arithmetic

  predicate IsLeapYear(y: int) {
    y % 4 == 0 && (y % 100 != 0 || y % 400 == 0)
  }

  function DaysInYear(y: int): int {
    if IsLeapYear(y) then 366 else 365
  }

  /** Days from 0001-01-01 to January 1st of year `y`. */
  function DaysToYear(y: int): int
    requires y >= 1
  {
    var p := y - 1;
    p * 365 + p / 4 - p / 100 + p / 400
  }

  /** Days in year `y` before the first of month `m` (m = 13 gives the whole
      year): the cumulative month-length tables of common and leap years. */
  function DaysToMonth(y: int, m: int): int
    requires 1 <= m <= 13
  {
    var common :=
      if m == 1 then 0 else if m == 2 then 31 else if m == 3 then 59
      else if m == 4 then 90 else if m == 5 then 120 else if m == 6 then 151
      else if m == 7 then 181 else if m == 8 then 212 else if m == 9 then 243
      else if m == 10 then 273 else if m == 11 then 304 else if m == 12 then 334
      else 365;
    if IsLeapYear(y) && m > 2 then common + 1 else common
  }

  /** `DateTime.DaysInMonth`: the difference of consecutive table entries. */
  function DaysInMonth(y: int, m: int): (n: int)
    requires 1 <= m <= 12
    ensures 28 <= n <= 31
  {
    MonthLengths(y, m);
    DaysToMonth(y, m + 1) - DaysToMonth(y, m)
  }

  /** The table gives thirty days to September, April, June and November,
      28 or 29 to February, and 31 to the rest. */
  lemma MonthLengths(y: int, m: int)
    requires 1 <= m <= 12
    ensures var n := DaysToMonth(y, m + 1) - DaysToMonth(y, m);
            && (m == 2 ==> n == (if IsLeapYear(y) then 29 else 28))
            && (m == 4 || m == 6 || m == 9 || m == 11 ==> n == 30)
            && (m != 2 && m != 4 && m != 6 && m != 9 && m != 11 ==> n == 31)
  {
    if m == 1 {} else if m == 2 {} else if m == 3 {} else if m == 4 {}
    else if m == 5 {} else if m == 6 {} else if m == 7 {} else if m == 8 {}
    else if m == 9 {} else if m == 10 {} else if m == 11 {} else {}
  }

  predicate ValidDate(d: Date) {
    1 <= d.year <= MaxYear && 1 <= d.month <= 12 && 1 <= d.day <= DaysInMonth(d.year, d.month)
  }

  /** Each year adds its own length to the running day count. */
  lemma DaysToYearStep(y: int)
    requires y >= 1
    ensures DaysToYear(y + 1) == DaysToYear(y) + DaysInYear(y)
  {
    var p := y - 1;
    assert y / 4 - p / 4 == (if y % 4 == 0 then 1 else 0);
    assert y / 100 - p / 100 == (if y % 100 == 0 then 1 else 0);
    assert y / 400 - p / 400 == (if y % 400 == 0 then 1 else 0);
  }

  lemma {:induction false} DaysToYearMonotone(a: int, b: int)
    requires 1 <= a <= b
    ensures DaysToYear(b) - DaysToYear(a) >= 365 * (b - a)
    decreases b - a
  {
    if a < b {
      DaysToYearMonotone(a, b - 1);
      DaysToYearStep(b - 1);
    }
  }

  /** Years 1..9999 take up exactly the day numbers 0 .. DaysTo10000 - 1. */
  lemma DaysToYearRange(y: int)
    requires 1 <= y <= MaxYear
    ensures 0 <= DaysToYear(y) < DaysToYear(y + 1) <= DaysToYear(MaxYear + 1) == DaysTo10000
  {
    DaysToYearMonotone(1, y);
    DaysToYearMonotone(y + 1, MaxYear + 1);
    DaysToYearStep(y);
  }

  lemma {:induction false} DaysToMonthMonotone(y: int, a: int, b: int)
    requires 1 <= a <= b <= 13
    ensures DaysToMonth(y, b) - DaysToMonth(y, a) >= 28 * (b - a)
    ensures DaysToMonth(y, 1) == 0 && DaysToMonth(y, 13) == DaysInYear(y)
    decreases b - a
  {
    if a < b {
      DaysToMonthMonotone(y, a, b - 1);
      assert DaysInMonth(y, b - 1) >= 28;
    }
  }

  /** `new DateTime(year, month, day)` as a day number (DateToTicks / TicksPerDay). */
  function DayOf(d: Date): (n: DayNumber)
    requires ValidDate(d)
  {
    DayOfInYear(d);
    DaysToYear(d.year) + DaysToMonth(d.year, d.month) + d.day - 1
  }

  /** A date's day number lies within its year's span of day numbers. */
  lemma DayOfInYear(d: Date)
    requires ValidDate(d)
    ensures var n := DaysToYear(d.year) + DaysToMonth(d.year, d.month) + d.day - 1;
            DaysToYear(d.year) <= n < DaysToYear(d.year + 1) <= DaysTo10000
  {
    DaysToYearRange(d.year);
    DaysToYearStep(d.year);
    DaysToMonthMonotone(d.year, d.month + 1, 13);
    assert d.day <= DaysToMonth(d.year, d.month + 1) - DaysToMonth(d.year, d.month);
  }

  /** The year holding day `n`, searching upwards from year `y`. */
  function YearFrom(n: DayNumber, y: int): (r: int)
    requires 1 <= y <= MaxYear && DaysToYear(y) <= n
    ensures y <= r <= MaxYear
    ensures DaysToYear(r) <= n < DaysToYear(r + 1)
    decreases MaxYear - y
  {
    if n < DaysToYear(y + 1) then y else YearFrom(n, y + 1)
  }

  /** The month holding day `r` of year `y`, searching upwards from month `m`. */
  function MonthFrom(y: int, r: int, m: int): (k: int)
    requires 1 <= m <= 12 && DaysToMonth(y, m) <= r < DaysInYear(y)
    ensures m <= k <= 12
    ensures DaysToMonth(y, k) <= r < DaysToMonth(y, k + 1)
    decreases 12 - m
  {
    if r < DaysToMonth(y, m + 1) then m else MonthFrom(y, r, m + 1)
  }

  /** The calendar date of a day number (DateTime.GetDate). */
  function ToDate(n: DayNumber): (d: Date)
    ensures ValidDate(d)
  {
    var y := YearFrom(n, 1);
    DaysToYearStep(y);
    var r := n - DaysToYear(y);
    var m := MonthFrom(y, r, 1);
    Date(y, m, r - DaysToMonth(y, m) + 1)
  }

  /** One half of the round trip: the date of a day number has that day number. */
  lemma DayOfToDate(n: DayNumber)
    ensures DayOf(ToDate(n)) == n
  {
  }

  /** Only one year holds a given day number. */
  lemma YearUnique(n: int, y1: int, y2: int)
    requires 1 <= y1 && 1 <= y2
    requires DaysToYear(y1) <= n < DaysToYear(y1 + 1)
    requires DaysToYear(y2) <= n < DaysToYear(y2 + 1)
    ensures y1 == y2
  {
    if y1 < y2 {
      DaysToYearMonotone(y1 + 1, y2);
    } else if y2 < y1 {
      DaysToYearMonotone(y2 + 1, y1);
    }
  }

  /** Only one month holds a given day of the year. */
  lemma MonthUnique(y: int, r: int, m1: int, m2: int)
    requires 1 <= m1 <= 12 && 1 <= m2 <= 12
    requires DaysToMonth(y, m1) <= r < DaysToMonth(y, m1 + 1)
    requires DaysToMonth(y, m2) <= r < DaysToMonth(y, m2 + 1)
    ensures m1 == m2
  {
    if m1 < m2 {
      DaysToMonthMonotone(y, m1 + 1, m2);
    } else if m2 < m1 {
      DaysToMonthMonotone(y, m2 + 1, m1);
    }
  }

  /** The other half of the round trip: a valid date survives DayOf then ToDate. */
  lemma ToDateOfDayOf(d: Date)
    requires ValidDate(d)
    ensures ToDate(DayOf(d)) == d
  {
    var n := DayOf(d);
    var e := ToDate(n);
    DayOfInYear(d);
    DayOfInYear(e);
    YearUnique(n, e.year, d.year);
    var r := n - DaysToYear(d.year);
    MonthLengths(d.year, d.month);
    MonthLengths(d.year, e.month);
    MonthUnique(d.year, r, e.month, d.month);
  }

  /** Day numbers are ordered as dates are: by year, then month, then day. */
  lemma DayOfOrder(a: Date, b: Date)
    requires ValidDate(a) && ValidDate(b)
    ensures DayOf(a) < DayOf(b) <==>
      a.year < b.year || (a.year == b.year && (a.month < b.month || (a.month == b.month && a.day < b.day)))
  {
    if a.year < b.year {
      EarlierYearFirst(a, b);
    } else if b.year < a.year {
      EarlierYearFirst(b, a);
    } else if a.month < b.month {
      EarlierMonthFirst(a, b);
    } else if b.month < a.month {
      EarlierMonthFirst(b, a);
    }
  }

  lemma EarlierYearFirst(a: Date, b: Date)
    requires ValidDate(a) && ValidDate(b) && a.year < b.year
    ensures DayOf(a) < DayOf(b)
  {
    DayOfInYear(a);
    DayOfInYear(b);
    DaysToYearMonotone(a.year + 1, b.year);
  }

  lemma EarlierMonthFirst(a: Date, b: Date)
    requires ValidDate(a) && ValidDate(b) && a.year == b.year && a.month < b.month
    ensures DayOf(a) < DayOf(b)
  {
    DaysToMonthMonotone(a.year, a.month + 1, b.month);
    assert a.day <= DaysToMonth(a.year, a.month + 1) - DaysToMonth(a.year, a.month);
  }

  /** A day in an earlier year has a smaller day number. */
  lemma YearOrder(m: DayNumber, n: DayNumber)
    requires ToDate(m).year < ToDate(n).year
    ensures m < n
  {
    DayOfInYear(ToDate(m));
    DayOfInYear(ToDate(n));
    DaysToYearMonotone(ToDate(m).year + 1, ToDate(n).year);
  }

  /** The first day of the month after that of `d`. */
  function NextMonthOf(d: Date): (e: Date)
    ensures e.year * 12 + e.month == d.year * 12 + d.month + 1 && e.day == 1
  {
    if d.month == 12 then Date(d.year + 1, 1, 1) else Date(d.year, d.month + 1, 1)
  }

  /** The last day of the month of `d`. */
  function LastOfMonth(d: Date): (e: Date)
    requires 1 <= d.month <= 12
    ensures e.year == d.year && e.month == d.month
  {
    Date(d.year, d.month, DaysInMonth(d.year, d.month))
  }

  /** The day after the last of a month is the first of the next month. */
  lemma NextDayAfterMonthEnd(d: Date)
    requires ValidDate(d) && !(d.year == MaxYear && d.month == 12)
    ensures ValidDate(LastOfMonth(d)) && ValidDate(NextMonthOf(d))
    ensures DayOf(LastOfMonth(d)) + 1 == DayOf(NextMonthOf(d))
  {
    DaysToYearStep(d.year);
    DaysToMonthMonotone(d.year, 1, 13);
  }

  /** Moving a valid day of month into another year: only February 29th can
      fall outside the month, and it becomes the 28th, the month's last day. */
  lemma ClampFebruary29(day: int, from: int, y: int, m: int)
    requires 1 <= m <= 12 && 1 <= day <= DaysInMonth(from, m)
    ensures var c := if m == 2 && day == 29 && !IsLeapYear(y) then 28 else day;
            && 1 <= c <= DaysInMonth(y, m)
            && c == (if day <= DaysInMonth(y, m) then day else DaysInMonth(y, m))
  {
    MonthLengths(from, m);
    MonthLengths(y, m);
  }

  // ---------------------------------------------------------------------
  // DateTime members

  function Year(dt: DateTime): int { ToDate(dt.day).year }
  function Month(dt: DateTime): int { ToDate(dt.day).month }

  /** Instants in ticks since 0001-01-01 00:00:00, the order DateTime compares by. */
  function Ticks(dt: DateTime): int {
    dt.day * TicksPerDay + dt.tick
  }

  /** Tick order is day order, then tick-of-day order. */
  lemma TicksOrder(a: DateTime, b: DateTime)
    ensures Ticks(a) < Ticks(b) <==> a.day < b.day || (a.day == b.day && a.tick < b.tick)
  {
    if a.day < b.day {
      assert Ticks(a) < (a.day + 1) * TicksPerDay <= Ticks(b);
    } else if b.day < a.day {
      assert Ticks(b) < (b.day + 1) * TicksPerDay <= Ticks(a);
    }
  }

  /** `dt.DayOfWeek`: day 0 was a Monday. */
  function DayOfWeekOf(dt: DateTime): DayOfWeek {
    (dt.day + 1) % 7
  }

  /** `dt.Date`: midnight of the same day. */
  function DateOnly(dt: DateTime): (r: DateTime)
    ensures r.day == dt.day && r.tick == 0
  {
    DateTime(dt.day, 0)
  }

  /** `dt.AddDays(k)` for a whole number of days. */
  function AddDays(dt: DateTime, k: int): (r: DateTime)
    requires 0 <= dt.day + k < DaysTo10000
    ensures r.day - dt.day == k && r.tick == dt.tick
    ensures DayOfWeekOf(r) == (DayOfWeekOf(dt) + k) % 7
  {
    DateTime(dt.day + k, dt.tick)
  }

  /** `dt.AddTicks(k)`. */
  function AddTicks(dt: DateTime, k: int): (r: DateTime)
    requires 0 <= Ticks(dt) + k < DaysTo10000 * TicksPerDay
    ensures Ticks(r) == Ticks(dt) + k
  {
    var t := Ticks(dt) + k;
    DateTime(t / TicksPerDay, t % TicksPerDay)
  }

  /** `dt.AddMonths(k)`: the month moves by `k`, the day is clamped to the
      length of the new month, the time of day is kept. The new year and
      month are computed here with floor division on the month index; .NET
      branches on the sign of that index and divides with truncation, which
      gives the same year and month. */
  function AddMonths(dt: DateTime, k: int): (r: DateTime)
    requires var d := ToDate(dt.day); 1 <= d.year + (d.month - 1 + k) / 12 <= MaxYear
    ensures var d := ToDate(dt.day); var e := ToDate(r.day);
            && e.year * 12 + e.month == d.year * 12 + d.month + k
            && e.day == (if d.day <= DaysInMonth(e.year, e.month) then d.day else DaysInMonth(e.year, e.month))
    ensures r.tick == dt.tick
  {
    var d := ToDate(dt.day);
    var i := d.month - 1 + k;
    var y := d.year + i / 12;
    var m := i % 12 + 1;
    var day := if d.day > DaysInMonth(y, m) then DaysInMonth(y, m) else d.day;
    var e := Date(y, m, day);
    ToDateOfDayOf(e);
    DateTime(DayOf(e), dt.tick)
  }

  /** `dt.AddYears(k)`: February 29th becomes February 28th in a common year;
      the time of day is kept. */
  function AddYears(dt: DateTime, k: int): (r: DateTime)
    requires 1 <= Year(dt) + k <= MaxYear
    ensures var d := ToDate(dt.day); var e := ToDate(r.day);
            && e.year == d.year + k && e.month == d.month
            && e.day == (if d.day <= DaysInMonth(e.year, e.month) then d.day else DaysInMonth(e.year, e.month))
    ensures r.tick == dt.tick
  {
    var d := ToDate(dt.day);
    var y := d.year + k;
    var day := if d.month == 2 && d.day == 29 && !IsLeapYear(y) then 28 else d.day;
    var e := Date(y, d.month, day);
    ClampFebruary29(d.day, d.year, y, d.month);
    ToDateOfDayOf(e);
    DateTime(DayOf(e), dt.tick)
  }

  /** `new DateTime(year, month, day)`: midnight of that date. */
  function FromDate(d: Date): (r: DateTime)
    requires ValidDate(d)
    ensures ToDate(r.day) == d && r.tick == 0
  {
    ToDateOfDayOf(d);
    DateTime(DayOf(d), 0)
  }
}

=== FILE: cookie_service_middleware.dfy ===
/** CookieServiceMiddleware.Invoke: register a response-start callback that
    writes the cookie service's cookies unless the status is a server error,
    then hand the request to the next handler.

    The exchange is an immutable record: the response status, whether the
    response has started, how many copies of the callback are registered
    (the server keeps and runs every registration, so a middleware added
    twice registers twice), and the trace of what happened. The next handler is abstracted as the sequence of
    status changes and response starts it performs. */
module CookieServiceMiddleware {
  import opened Wrappers
  import opened IntegerExtensions

  datatype Event =
    | CallbackRegistered
    | NextInvoked
    | StatusSet(code: int)
    | ResponseStarted
    | CookiesWritten

  datatype Exchange = Exchange(status: int, started: bool, callbacks: nat, trace: seq<Event>)

  /** What the next handler does to the response. */
  datatype Action = SetStatus(code: int) | StartResponse

  const ServerErrorFirst: int := 500
  const ServerErrorLast: int := 599

  /** The callback's test: no cookies on a status in 500..599, both ends included. */
  predicate WritesCookies(status: int) {
    !IsInRange(status, ServerErrorFirst, ServerErrorLast)
  }

  /** Cookies are written for every status below 500 or above 599. */
  lemma WritesCookiesOutsideRange(status: int)
    ensures WritesCookies(status) <==> status < 500 || status > 599
  {
  }

  /** `context.Response.OnStarting(...)`: one more callback is recorded,
      beside any registered before; nothing else changes. */
  function Register(x: Exchange): (r: Exchange)
    ensures r.callbacks == x.callbacks + 1 && r.trace == x.trace + [CallbackRegistered]
    ensures r.status == x.status && r.started == x.started
  {
    x.(callbacks := x.callbacks + 1, trace := x.trace + [CallbackRegistered])
  }

  /** The callback body: `WriteToResponse` runs exactly when the status at
      this moment is outside 500..599; the status is left as it is. */
  function OnStarting(x: Exchange): (r: Exchange)
    ensures r.status == x.status && r.started == x.started && r.callbacks == x.callbacks
    ensures WritesCookies(x.status) ==> r.trace == x.trace + [CookiesWritten]
    ensures !WritesCookies(x.status) ==> r.trace == x.trace
  {
    if !IsInRange(x.status, ServerErrorFirst, ServerErrorLast) then
      x.(trace := x.trace + [CookiesWritten])
    else
      x
  }

  /** `k` cookie writes in a row. */
  function Writes(k: nat): (w: seq<Event>)
    ensures |w| == k && forall i :: 0 <= i < k ==> w[i] == CookiesWritten
  {
    seq(k, i => CookiesWritten)
  }

  /** The server running `k` registered copies of the callback when the
      response starts: every copy sees the same status, so each writes the
      cookies when that status is outside 500..599. */
  function RunCallbacks(x: Exchange, k: nat): (r: Exchange)
    ensures r.status == x.status && r.started == x.started && r.callbacks == x.callbacks
    ensures WritesCookies(x.status) ==> r.trace == x.trace + Writes(k)
    ensures !WritesCookies(x.status) ==> r.trace == x.trace
    decreases k
  {
    if k == 0 then
      assert x.trace + Writes(0) == x.trace;
      x
    else
      var r := RunCallbacks(OnStarting(x), k - 1);
      assert WritesCookies(x.status) ==> x.trace + [CookiesWritten] + Writes(k - 1) == x.trace + Writes(k);
      r
  }

  /** One action of the next handler. A status change after the response has
      started is refused by the server and changes nothing. The first start
      runs every registered callback and then marks the response started (the
      callbacks run before the headers go out); later starts change nothing. */
  function Step(x: Exchange, a: Action): (r: Exchange)
    ensures r.callbacks == x.callbacks
    ensures |r.trace| >= |x.trace| && r.trace[..|x.trace|] == x.trace
    ensures x.started ==> r.started && r.status == x.status
  {
    match a
    case SetStatus(code) =>
      if x.started then x else x.(status := code, trace := x.trace + [StatusSet(code)])
    case StartResponse =>
      if x.started then x
      else
        var y := RunCallbacks(x, x.callbacks);
        y.(started := true, trace := y.trace + [ResponseStarted])
  }

  /** The next handler: its actions in order. */
  function RunHandler(x: Exchange, actions: seq<Action>): (r: Exchange)
    ensures r.callbacks == x.callbacks
    ensures |r.trace| >= |x.trace| && r.trace[..|x.trace|] == x.trace
    ensures x.started ==> r.started && r.status == x.status
    decreases |actions|
  {
    if |actions| == 0 then x else RunHandler(Step(x, actions[0]), actions[1..])
  }

  /** `Invoke(context, cookieService)`: register the callback, then run the
      next handler once. Callbacks already registered, by another copy of the
      middleware, say, stay registered. On a response that has already started,
      `OnStarting` throws InvalidOperationException before anything is
      registered and the next handler never runs: the result is None. */
  function Invoke(x: Exchange, actions: seq<Action>): (r: Option<Exchange>)
    ensures r.None? <==> x.started
    ensures r.Some? ==> r.value.callbacks == x.callbacks + 1 && |r.value.trace| >= |x.trace| + 2
    ensures r.Some? ==> r.value.trace[..|x.trace| + 2] == x.trace + [CallbackRegistered, NextInvoked]
  {
    if x.started then None
    else
      var y := Register(x);
      var z := y.(trace := y.trace + [NextInvoked]);
      var r := RunHandler(z, actions);
      assert r.trace[..|z.trace|] == z.trace;
      assert z.trace == x.trace + [CallbackRegistered, NextInvoked];
      Some(r)
  }

  /** How the request pipeline ends: it returns normally, or it throws. */
  datatype Ending = Returned | Failed

  /** The server around the pipeline, as Kestrel behaves: when the pipeline
      returns normally without having started the response, the server
      starts it, which runs the start callbacks; when it throws (the
      middleware's own exception included), the callbacks are not run. */
  function Serve(x: Exchange, actions: seq<Action>, ending: Ending): (r: Exchange)
    ensures x.started ==> r == x
    ensures !x.started && ending == Returned ==> r.started
  {
    match Invoke(x, actions)
    case None => x
    case Some(y) => if ending == Returned then Step(y, StartResponse) else y
  }

  // ---------------------------------------------------------------------
  // Counting what happened

  /** Occurrences of `e` in `trace`. */
  function Count(trace: seq<Event>, e: Event): (n: nat)
    ensures n <= |trace|
    ensures n == 0 <==> e !in trace
    decreases |trace|
  {
    if |trace| == 0 then 0
    else (if trace[|trace| - 1] == e then 1 else 0) + Count(trace[..|trace| - 1], e)
  }

  /** Counting distributes over concatenation. */
  lemma {:induction false} CountAppend(a: seq<Event>, b: seq<Event>, e: Event)
    ensures Count(a + b, e) == Count(a, e) + Count(b, e)
    decreases |b|
  {
    if |b| > 0 {
      assert (a + b)[..|a + b| - 1] == a + b[..|b| - 1];
      assert (a + b)[|a + b| - 1] == b[|b| - 1];
      CountAppend(a, b[..|b| - 1], e);
    } else {
      assert a + b == a;
    }
  }

  /** The partner of the callback: the status the response has when it first
      starts, for a handler running on a response that has not started with
      status `status`; None when the handler never starts it. */
  function StatusAtStart(status: int, actions: seq<Action>): (r: Option<int>)
    ensures r.None? <==> StartResponse !in actions
    decreases |actions|
  {
    if |actions| == 0 then None
    else match actions[0]
      case StartResponse => Some(status)
      case SetStatus(code) => StatusAtStart(code, actions[1..])
  }

  /** The status a handler that never starts the response leaves: the last
      one it sets, or `status` when it sets none. */
  function LastStatus(status: int, actions: seq<Action>): (r: int)
    ensures (forall i :: 0 <= i < |actions| ==> !actions[i].SetStatus?) ==> r == status
    ensures forall i :: 0 <= i < |actions| && actions[i].SetStatus?
                        && (forall j :: i < j < |actions| ==> !actions[j].SetStatus?) ==>
              r == actions[i].code
    decreases |actions|
  {
    if |actions| == 0 then status
    else
      var rest := actions[1..];
      assert forall i :: 0 < i < |actions| ==> actions[i] == rest[i - 1];
      match actions[0]
      case SetStatus(code) => LastStatus(code, rest)
      case StartResponse => LastStatus(status, rest)
  }

  /** The general rule: when the handler first starts the response at
      position `i`, the status at the start is the last one it set before
      that position, or the initial status when it set none. */
  lemma {:induction false} StatusAtStartIsLastBefore(status: int, actions: seq<Action>, i: nat)
    requires i < |actions| && actions[i] == StartResponse && StartResponse !in actions[..i]
    ensures StatusAtStart(status, actions) == Some(LastStatus(status, actions[..i]))
    decreases i
  {
    if i > 0 {
      assert actions[..i][0] == actions[0];
      match actions[0]
      case SetStatus(code) =>
        var rest := actions[1..];
        assert rest[i - 1] == StartResponse;
        assert rest[..i - 1] == actions[..i][1..];
        assert forall a :: a in rest[..i - 1] ==> a in actions[..i];
        StatusAtStartIsLastBefore(code, rest, i - 1);
    }
  }

  /** The partner of the callback seen from the server: the status when the
      start callbacks run, which is the status at the handler's first start,
      or, when the handler never starts the response and the pipeline returns
      normally, the status it leaves; None when the callbacks never run. */
  function StatusAtCallback(status: int, actions: seq<Action>, ending: Ending): (r: Option<int>)
    ensures StatusAtStart(status, actions).Some? ==> r == StatusAtStart(status, actions)
    ensures ending == Failed ==> r == StatusAtStart(status, actions)
    ensures ending == Returned ==> r.Some?
    ensures StatusAtStart(status, actions).None? && ending == Returned ==> r == Some(LastStatus(status, actions))
  {
    match StatusAtStart(status, actions)
    case Some(s) => Some(s)
    case None => if ending == Returned then Some(LastStatus(status, actions)) else None
  }

  /** The handler causes one cookie write per registered callback when the
      status at the first start is outside 500..599, and none otherwise. */
  lemma {:induction false} RunHandlerWrites(x: Exchange, actions: seq<Action>)
    requires !x.started
    ensures var r := RunHandler(x, actions);
            Count(r.trace, CookiesWritten) == Count(x.trace, CookiesWritten) +
              (match StatusAtStart(x.status, actions)
               case Some(s) => if WritesCookies(s) then x.callbacks else 0
               case None => 0)
    decreases |actions|
  {
    if |actions| > 0 {
      var y := Step(x, actions[0]);
      match actions[0]
      case SetStatus(code) =>
        CountAppend(x.trace, [StatusSet(code)], CookiesWritten);
        RunHandlerWrites(y, actions[1..]);
      case StartResponse =>
        StartCount(x, CookiesWritten);
        NoWritesOnceStarted(y, actions[1..]);
    }
  }

  /** Starting a response adds one start event, and one cookie write per
      registered callback when the status is outside 500..599. */
  lemma StartCount(x: Exchange, e: Event)
    requires !x.started
    ensures Count(Step(x, StartResponse).trace, e) == Count(x.trace, e)
      + (if e == CookiesWritten && WritesCookies(x.status) then x.callbacks else 0)
      + (if e == ResponseStarted then 1 else 0)
  {
    var y := RunCallbacks(x, x.callbacks);
    CountAppend(y.trace, [ResponseStarted], e);
    if WritesCookies(x.status) {
      CountAppend(x.trace, Writes(x.callbacks), e);
      CountWrites(x.callbacks, e);
    }
  }

  /** `k` cookie writes count `k` times for CookiesWritten and never for
      any other event. */
  lemma {:induction false} CountWrites(k: nat, e: Event)
    ensures Count(Writes(k), e) == (if e == CookiesWritten then k else 0)
    decreases k
  {
    if k > 0 {
      assert Writes(k)[..k - 1] == Writes(k - 1);
      CountWrites(k - 1, e);
    }
  }

  /** Once the response has started, the handler writes no more cookies. */
  lemma {:induction false} NoWritesOnceStarted(x: Exchange, actions: seq<Action>)
    requires x.started
    ensures RunHandler(x, actions).trace == x.trace
    decreases |actions|
  {
    if |actions| > 0 {
      NoWritesOnceStarted(Step(x, actions[0]), actions[1..]);
    }
  }

  /** The gate while the pipeline runs: on a response that has not started,
      the handler causes one cookie write per registered callback, this
      middleware's included, when it starts the response with a status
      outside 500..599, and none when the status is a server error or the
      handler does not start the response itself. With no earlier
      registration, that is exactly one write. */
  lemma InvokeWritesCookies(x: Exchange, actions: seq<Action>)
    requires !x.started && CookiesWritten !in x.trace
    ensures var n := Count(Invoke(x, actions).value.trace, CookiesWritten);
            var w := StatusAtStart(x.status, actions).Some? && WritesCookies(StatusAtStart(x.status, actions).value);
            && n == (if w then x.callbacks + 1 else 0)
            && (n > 0 <==> w)
  {
    var y := Register(x);
    var z := y.(trace := y.trace + [NextInvoked]);
    CountAppend(x.trace, [CallbackRegistered], CookiesWritten);
    CountAppend(y.trace, [NextInvoked], CookiesWritten);
    RunHandlerWrites(z, actions);
  }

  /** A handler that never starts the response leaves it unstarted, with the
      last status it set and no cookie written. */
  lemma {:induction false} NeverStartedLeavesStatus(x: Exchange, actions: seq<Action>)
    requires !x.started && StartResponse !in actions
    ensures var r := RunHandler(x, actions);
            !r.started && r.status == LastStatus(x.status, actions) && r.trace[..|x.trace|] == x.trace
    decreases |actions|
  {
    if |actions| > 0 {
      assert actions[0] in actions;
      assert forall a | a in actions[1..] :: a in actions;
      NeverStartedLeavesStatus(Step(x, actions[0]), actions[1..]);
    }
  }

  /** The gate, end to end with the server: on a response that has not
      started, cookies are written once per registered callback, this
      middleware's included, when the start callbacks run with a status
      outside 500..599, and never otherwise. A pipeline that returns normally
      always gets its callbacks run, by the handler's start or by the
      server's; one that throws gets them only if the handler started the
      response. */
  lemma ServeWritesCookies(x: Exchange, actions: seq<Action>, ending: Ending)
    requires !x.started && CookiesWritten !in x.trace
    ensures var n := Count(Serve(x, actions, ending).trace, CookiesWritten);
            var s := StatusAtCallback(x.status, actions, ending);
            && n == (if s.Some? && WritesCookies(s.value) then x.callbacks + 1 else 0)
            && (n > 0 <==> s.Some? && WritesCookies(s.value))
  {
    InvokeWritesCookies(x, actions);
    var y := Invoke(x, actions).value;
    var z := Register(x).(trace := Register(x).trace + [NextInvoked]);
    assert y == RunHandler(z, actions);
    if StatusAtStart(x.status, actions).Some? {
      HandlerStarts(z, actions);
      assert Serve(x, actions, ending) == y;
    } else if ending == Failed {
      assert Serve(x, actions, ending) == y;
    } else {
      NeverStartedLeavesStatus(z, actions);
      assert Serve(x, actions, ending) == Step(y, StartResponse);
      StartCount(y, CookiesWritten);
    }
  }

  /** A handler that starts the response leaves it started. */
  lemma {:induction false} HandlerStarts(x: Exchange, actions: seq<Action>)
    requires StartResponse in actions
    ensures RunHandler(x, actions).started
    decreases |actions|
  {
    if actions[0] != StartResponse {
      assert StartResponse in actions[1..];
      HandlerStarts(Step(x, actions[0]), actions[1..]);
    }
  }

  /** The next handler is invoked exactly once. */
  lemma InvokeCallsNextOnce(x: Exchange, actions: seq<Action>)
    requires !x.started && NextInvoked !in x.trace
    ensures Count(Invoke(x, actions).value.trace, NextInvoked) == 1
  {
    var y := Register(x);
    var z := y.(trace := y.trace + [NextInvoked]);
    CountAppend(x.trace, [CallbackRegistered], NextInvoked);
    CountAppend(y.trace, [NextInvoked], NextInvoked);
    NextNotRepeated(z, actions);
  }

  /** The handler's actions never invoke the next handler again. */
  lemma {:induction false} NextNotRepeated(x: Exchange, actions: seq<Action>)
    ensures Count(RunHandler(x, actions).trace, NextInvoked) == Count(x.trace, NextInvoked)
    decreases |actions|
  {
    if |actions| > 0 {
      var y := Step(x, actions[0]);
      if !x.started {
        match actions[0]
        case SetStatus(code) =>
          CountAppend(x.trace, [StatusSet(code)], NextInvoked);
        case StartResponse =>
          StartCount(x, NextInvoked);
      }
      assert Count(y.trace, NextInvoked) == Count(x.trace, NextInvoked);
      NextNotRepeated(y, actions[1..]);
    }
  }

  // ---------------------------------------------------------------------
  // Scenarios on a fresh exchange (status 200, not started, empty trace)

  const Fresh: Exchange := Exchange(200, false, 0, [])

  /** Four instances of the rule: the status set last before the start
      decides, not the first one nor one set after the start. */
  lemma StatusAtCallbackTimeDecides()
    ensures StatusAtStart(Fresh.status, [SetStatus(500), SetStatus(200), StartResponse]) == Some(200)
    ensures StatusAtStart(Fresh.status, [SetStatus(200), SetStatus(503), StartResponse]) == Some(503)
    ensures StatusAtStart(Fresh.status, [StartResponse, SetStatus(500)]) == Some(200)
    ensures StatusAtCallback(Fresh.status, [SetStatus(500), SetStatus(404)], Returned) == Some(404)
  {
  }

  /** 200 and 404 lead to a write; 500, 503 and 599 do not, both ends of the
      range being included. A handler that sets 404 without starting the
      response gets no write while the pipeline runs, one when it returns and
      the server starts the response, and none when it throws. On a response
      that has already started, the middleware throws. */
  lemma StatusScenarios()
    ensures WritesCookies(200) && WritesCookies(404) && WritesCookies(499) && WritesCookies(600)
    ensures !WritesCookies(500) && !WritesCookies(503) && !WritesCookies(599)
    ensures Count(Invoke(Fresh, [SetStatus(404), StartResponse]).value.trace, CookiesWritten) == 1
    ensures Count(Invoke(Fresh, [SetStatus(500), StartResponse]).value.trace, CookiesWritten) == 0
    ensures Count(Invoke(Fresh, [SetStatus(404)]).value.trace, CookiesWritten) == 0
    ensures Count(Serve(Fresh, [SetStatus(404)], Returned).trace, CookiesWritten) == 1
    ensures Count(Serve(Fresh, [SetStatus(404)], Failed).trace, CookiesWritten) == 0
    ensures Invoke(Fresh.(started := true), []).None?
  {
  }

  /** With the middleware added twice, two callbacks are registered and the
      cookies are written twice. */
  lemma DoubleRegistrationWritesTwice()
    ensures Count(Invoke(Fresh.(callbacks := 1), [StartResponse]).value.trace, CookiesWritten) == 2
  {
    InvokeWritesCookies(Fresh.(callbacks := 1), [StartResponse]);
  }
}

=== FILE: datetime_extensions.dfy ===
/** DateTimeExtensions: age in completed years, weekend tests, and the first and
    last moments of days, months, years and weeks, over the Calendar model of
    System.DateTime. */
module DateTimeExtensions {
  import opened Calendar

  // ---------------------------------------------------------------------
  // Age

  /** The date `years` after `birth`, February 29th falling back to the 28th. */
  function Anniversary(birth: DateTime, years: int): DateTime
    requires 1 <= Year(birth) + years <= MaxYear
  {
    AddYears(DateOnly(birth), years)
  }

  /** `Age(birthDate, laterDate)`: the year difference, less one when the
      later date falls before that year's anniversary; 0 when the later year is
      not after the birth year. */
  function Age(birthDate: DateTime, laterDate: DateTime): (age: int)
    ensures age >= 0
    ensures Year(laterDate) <= Year(birthDate) ==> age == 0
    ensures Year(laterDate) > Year(birthDate) ==>
      Year(laterDate) - Year(birthDate) - 1 <= age <= Year(laterDate) - Year(birthDate)
  {
    var age := Year(laterDate) - Year(birthDate);
    if age > 0 then
      age - (if Ticks(DateOnly(laterDate)) < Ticks(Anniversary(birthDate, age)) then 1 else 0)
    else
      0
  }

  /** For a later year, Age is the year difference less one exactly when the
      later date's month and day come before the birthday in that year, the
      birthday being February 28th for a February 29th birth in a common year. */
  lemma AgeBirthdayRule(birthDate: DateTime, laterDate: DateTime)
    requires Year(laterDate) > Year(birthDate)
    ensures var b := ToDate(birthDate.day);
      var l := ToDate(laterDate.day);
      var birthday := if b.day <= DaysInMonth(l.year, b.month) then b.day else DaysInMonth(l.year, b.month);
      Age(birthDate, laterDate) ==
        if l.month < b.month || (l.month == b.month && l.day < birthday) then l.year - b.year - 1 else l.year - b.year
  {
    var k := Year(laterDate) - Year(birthDate);
    AgeByAnniversary(birthDate, laterDate, k);
    AnniversaryOrder(birthDate, laterDate, k);
  }

  /** The later date precedes the `k`-th anniversary, `k` being the year
      difference, exactly when its month and day precede the birthday. */
  lemma AnniversaryOrder(birthDate: DateTime, laterDate: DateTime, k: int)
    requires k == Year(laterDate) - Year(birthDate) > 0
    ensures var b := ToDate(birthDate.day);
      var l := ToDate(laterDate.day);
      var birthday := if b.day <= DaysInMonth(l.year, b.month) then b.day else DaysInMonth(l.year, b.month);
      laterDate.day < Anniversary(birthDate, k).day <==> l.month < b.month || (l.month == b.month && l.day < birthday)
  {
    var a := Anniversary(birthDate, k);
    DayOfToDate(laterDate.day);
    DayOfToDate(a.day);
    DayOfOrder(ToDate(laterDate.day), ToDate(a.day));
  }

  /** Age counts the anniversaries reached: it is at least `k` exactly when
      the `k`-th anniversary of the birth date is on or before the later date. */
  lemma AgeCountsAnniversaries(birthDate: DateTime, laterDate: DateTime, k: int)
    requires 1 <= k && Year(birthDate) + k <= MaxYear
    ensures k <= Age(birthDate, laterDate) <==> Anniversary(birthDate, k).day <= laterDate.day
  {
    if Year(birthDate) + k < Year(laterDate) {
      AnniversaryInEarlierYear(birthDate, laterDate, k);
    } else if Year(birthDate) + k > Year(laterDate) {
      AnniversaryInLaterYear(birthDate, laterDate, k);
    } else {
      AnniversaryInSameYear(birthDate, laterDate, k);
    }
  }

  lemma AnniversaryInSameYear(birthDate: DateTime, laterDate: DateTime, k: int)
    requires 1 <= k && Year(birthDate) + k == Year(laterDate)
    ensures k <= Age(birthDate, laterDate) <==> Anniversary(birthDate, k).day <= laterDate.day
  {
    AgeByAnniversary(birthDate, laterDate, k);
  }

  lemma AnniversaryInEarlierYear(birthDate: DateTime, laterDate: DateTime, k: int)
    requires 1 <= k && Year(birthDate) + k < Year(laterDate)
    ensures k <= Age(birthDate, laterDate) && Anniversary(birthDate, k).day <= laterDate.day
  {
    AnniversaryYear(birthDate, k);
    YearOrder(Anniversary(birthDate, k).day, laterDate.day);
  }

  lemma AnniversaryInLaterYear(birthDate: DateTime, laterDate: DateTime, k: int)
    requires 1 <= k && Year(laterDate) < Year(birthDate) + k <= MaxYear
    ensures Age(birthDate, laterDate) < k && laterDate.day < Anniversary(birthDate, k).day
  {
    AnniversaryYear(birthDate, k);
    YearOrder(laterDate.day, Anniversary(birthDate, k).day);
  }

  /** The `k`-th anniversary falls in the birth year plus `k`. */
  lemma AnniversaryYear(birth: DateTime, k: int)
    requires 1 <= Year(birth) + k <= MaxYear
    ensures Year(Anniversary(birth, k)) == Year(birth) + k
  {
  }

  /** Age, for a later year `k` years on, compares the later date with the
      `k`-th anniversary. */
  lemma AgeUnfold(birthDate: DateTime, laterDate: DateTime, k: int)
    requires k == Year(laterDate) - Year(birthDate) > 0
    ensures Age(birthDate, laterDate) ==
              k - (if Ticks(DateOnly(laterDate)) < Ticks(Anniversary(birthDate, k)) then 1 else 0)
  {
  }

  /** For a later year `k` years on, Age is `k` when the `k`-th anniversary
      has been reached, and one less otherwise. */
  lemma AgeByAnniversary(birthDate: DateTime, laterDate: DateTime, k: int)
    requires k == Year(laterDate) - Year(birthDate) > 0
    ensures Age(birthDate, laterDate) == if Anniversary(birthDate, k).day <= laterDate.day then k else k - 1
  {
    TicksOrder(DateOnly(laterDate), Anniversary(birthDate, k));
    AgeUnfold(birthDate, laterDate, k);
  }

  // ---------------------------------------------------------------------
  // Weekends

  /** Day number `n` falls on a Saturday or a Sunday. */
  predicate WeekendDay(n: int) {
    (n + 1) % 7 == Saturday || (n + 1) % 7 == Sunday
  }

  function IsWeekend(dt: DateTime): (r: bool)
    ensures r <==> WeekendDay(dt.day)
    ensures r <==> dt.day % 7 >= 5
  {
    DayOfWeekOf(dt) == Saturday || DayOfWeekOf(dt) == Sunday
  }

  function IsWeekDay(dt: DateTime): (r: bool)
    ensures r <==> Monday <= DayOfWeekOf(dt) <= Friday
    ensures r <==> dt.day % 7 < 5
  {
    !IsWeekend(dt)
  }

  // ---------------------------------------------------------------------
  // Start and end of a day, month and year

  /** The first moment of the day: the latest midnight not after `dt`. */
  function StartOfDay(dt: DateTime): (r: DateTime)
    ensures r.day == dt.day && r.tick == 0
    ensures Ticks(r) <= Ticks(dt) < Ticks(r) + TicksPerDay
  {
    DateOnly(dt)
  }

  /** The last tick of the day: one tick before the next midnight. The next
      midnight must exist, so the last representable day has no end of day. */
  function EndOfDay(dt: DateTime): (r: DateTime)
    requires dt.day + 1 < DaysTo10000
    ensures r.day == dt.day && r.tick == TicksPerDay - 1
    ensures Ticks(dt) <= Ticks(r) && Ticks(r) + 1 == (dt.day + 1) * TicksPerDay
  {
    AddTicks(AddDays(DateOnly(dt), 1), -1)
  }

  /** Midnight on the first day of `dt`'s month. */
  function StartOfMonth(dt: DateTime): (r: DateTime)
    ensures ToDate(r.day) == Date(Year(dt), Month(dt), 1) && r.tick == 0
    ensures dt.day - r.day == ToDate(dt.day).day - 1
  {
    StartOfDay(FromDate(Date(Year(dt), Month(dt), 1)))
  }

  /** The last tick of the last day of `dt`'s month. Going through the next
      month, it is undefined for December of the last year. */
  function EndOfMonth(dt: DateTime): (r: DateTime)
    requires !(Year(dt) == MaxYear && Month(dt) == 12)
    ensures ToDate(r.day) == Date(Year(dt), Month(dt), DaysInMonth(Year(dt), Month(dt)))
    ensures r.tick == TicksPerDay - 1
    ensures Ticks(dt) <= Ticks(r)
  {
    var d := ToDate(dt.day);
    var last := LastOfMonth(d);
    FirstOfNextMonth(dt);
    var next := StartOfMonth(AddMonths(dt, 1));
    assert next.day == DayOf(last) + 1;
    var r := EndOfDay(AddDays(next, -1));
    assert r.day == DayOf(last);
    ToDateOfDayOf(last);
    assert dt.day <= r.day by {
      DayOfOrder(last, d);
    }
    TicksOrder(r, dt);
    r
  }

  /** The first of the following month is the day after the last of this one. */
  lemma FirstOfNextMonth(dt: DateTime)
    requires !(Year(dt) == MaxYear && Month(dt) == 12)
    ensures ValidDate(LastOfMonth(ToDate(dt.day)))
    ensures StartOfMonth(AddMonths(dt, 1)).day == DayOf(LastOfMonth(ToDate(dt.day))) + 1
  {
    NextDayAfterMonthEnd(ToDate(dt.day));
    StartOfNextMonth(dt);
    DayOfToDate(StartOfMonth(AddMonths(dt, 1)).day);
  }

  /** The start of the month one month on is the first of the next month. */
  lemma StartOfNextMonth(dt: DateTime)
    requires !(Year(dt) == MaxYear && Month(dt) == 12)
    ensures ToDate(StartOfMonth(AddMonths(dt, 1)).day) == NextMonthOf(ToDate(dt.day))
  {
    AddMonthsReachesNextMonth(dt);
  }

  /** Adding one month lands in the following calendar month. */
  lemma AddMonthsReachesNextMonth(dt: DateTime)
    requires !(Year(dt) == MaxYear && Month(dt) == 12)
    ensures var e := ToDate(AddMonths(dt, 1).day);
            Date(e.year, e.month, 1) == NextMonthOf(ToDate(dt.day))
  {
    var d := ToDate(dt.day);
    var e := ToDate(AddMonths(dt, 1).day);
    MonthCount(e.year, e.month, NextMonthOf(d).year, NextMonthOf(d).month);
  }

  /** A year and month are determined by their count of months. */
  lemma MonthCount(y1: int, m1: int, y2: int, m2: int)
    requires 1 <= m1 <= 12 && 1 <= m2 <= 12 && y1 * 12 + m1 == y2 * 12 + m2
    ensures y1 == y2 && m1 == m2
  {
  }

  /** Midnight on January 1st of `dt`'s year. */
  function StartOfYear(dt: DateTime): (r: DateTime)
    ensures ToDate(r.day) == Date(Year(dt), 1, 1) && r.tick == 0
    ensures r.day <= dt.day
  {
    var d := ToDate(dt.day);
    DayOfOrder(d, Date(d.year, 1, 1));
    StartOfDay(FromDate(Date(Year(dt), 1, 1)))
  }

  /** The last tick of December 31st of `dt`'s year; undefined in the last year. */
  function EndOfYear(dt: DateTime): (r: DateTime)
    requires Year(dt) < MaxYear
    ensures ToDate(r.day) == Date(Year(dt), 12, 31) && r.tick == TicksPerDay - 1
    ensures Ticks(dt) <= Ticks(r)
  {
    var last := Date(Year(dt), 12, 31);
    LastDayOfYear(dt);
    var r := EndOfDay(FromDate(last));
    TicksOrder(r, dt);
    r
  }

  /** December 31st of a year before the last is a valid date, on or after
      every day of its year, and followed by another representable day. */
  lemma LastDayOfYear(dt: DateTime)
    requires Year(dt) < MaxYear
    ensures var last := Date(Year(dt), 12, 31);
            ValidDate(last) && dt.day <= DayOf(last) && DayOf(last) + 1 < DaysTo10000
  {
    var d := ToDate(dt.day);
    var last := Date(d.year, 12, 31);
    MonthLengths(d.year, 12);
    assert ValidDate(last);
    DayOfOrder(last, d);
    DayOfInYear(last);
    DaysToYearRange(d.year + 1);
  }

  // ---------------------------------------------------------------------
  // Weeks

  /** The last day of a week that starts on `s`: the day before, Sunday
      wrapping round to Saturday. */
  function WeekEnd(s: DayOfWeek): (e: DayOfWeek)
    ensures (e + 1) % 7 == s
  {
    if s - 1 < 0 then Saturday else s - 1
  }

  /** Days from the start of a week beginning on `s` to a day whose day of
      week is `w`. */
  function DaysIntoWeek(w: DayOfWeek, s: DayOfWeek): (k: int)
    ensures 0 <= k <= 6 && (s + k) % 7 == w
  {
    (w - s) % 7
  }

  /** Midnight on the latest day on or before `dt` whose day of week is
      `startDayOfWeek`. The source moves back by `w - s` days when the start
      day comes earlier in the Sunday-based numbering and by `7 - (s - w)`
      otherwise; both are the distance into the week. */
  function StartOfWeek(dt: DateTime, startDayOfWeek: DayOfWeek := Sunday): (r: DateTime)
    requires dt.day >= DaysIntoWeek(DayOfWeekOf(dt), startDayOfWeek)
    ensures r.tick == 0 && DayOfWeekOf(r) == startDayOfWeek
    ensures dt.day - r.day == DaysIntoWeek(DayOfWeekOf(dt), startDayOfWeek)
  {
    var start := StartOfDay(dt);
    if DayOfWeekOf(start) != startDayOfWeek then
      var d := startDayOfWeek - DayOfWeekOf(start);
      if startDayOfWeek <= DayOfWeekOf(start) then AddDays(start, d)
      else AddDays(start, -7 + d)
    else
      start
  }

  /** Midnight on the earliest day on or after `dt` whose day of week is the
      last of a week starting on `startDayOfWeek`. */
  function EndOfWeek(dt: DateTime, startDayOfWeek: DayOfWeek := Sunday): (r: DateTime)
    requires dt.day + DaysIntoWeek(WeekEnd(startDayOfWeek), DayOfWeekOf(dt)) < DaysTo10000
    ensures r.tick == 0 && DayOfWeekOf(r) == WeekEnd(startDayOfWeek)
    ensures r.day - dt.day == DaysIntoWeek(WeekEnd(startDayOfWeek), DayOfWeekOf(dt))
  {
    var end := StartOfDay(dt);
    var endDayOfWeek := WeekEnd(startDayOfWeek);
    if DayOfWeekOf(end) != endDayOfWeek then
      if endDayOfWeek < DayOfWeekOf(end) then AddDays(end, 7 - (DayOfWeekOf(end) - endDayOfWeek))
      else AddDays(end, endDayOfWeek - DayOfWeekOf(end))
    else
      end
  }

  /** No day strictly between the start of the week and `dt` falls on the
      start day: StartOfWeek finds the latest one. */
  lemma StartOfWeekIsLatest(dt: DateTime, s: DayOfWeek, n: int)
    requires dt.day >= DaysIntoWeek(DayOfWeekOf(dt), s)
    requires StartOfWeek(dt, s).day < n <= dt.day
    ensures (n + 1) % 7 != s
  {
    var r := StartOfWeek(dt, s);
    DistinctWithinAWeek(r.day, n);
  }

  /** No day from `dt` up to the end of the week, the end excluded, falls on
      the week's last day: EndOfWeek finds the earliest one. */
  lemma EndOfWeekIsEarliest(dt: DateTime, s: DayOfWeek, n: int)
    requires dt.day + DaysIntoWeek(WeekEnd(s), DayOfWeekOf(dt)) < DaysTo10000
    requires dt.day <= n < EndOfWeek(dt, s).day
    ensures (n + 1) % 7 != WeekEnd(s)
  {
    var r := EndOfWeek(dt, s);
    DistinctWithinAWeek(n, r.day);
  }

  /** Two days less than a week apart have different days of the week. */
  lemma DistinctWithinAWeek(m: int, n: int)
    requires m < n <= m + 6
    ensures (m + 1) % 7 != (n + 1) % 7
  {
    var k := n - m;
    assert (n + 1) % 7 == ((m + 1) % 7 + k) % 7;
  }

  /** The distance into the week and the distance to its end add up to six. */
  lemma WeekDistances(w: DayOfWeek, s: DayOfWeek)
    ensures DaysIntoWeek(w, s) + DaysIntoWeek(WeekEnd(s), w) == 6
  {
    if s == 0 {
    } else if s <= w {
      assert DaysIntoWeek(w, s) == w - s;
    } else {
      assert DaysIntoWeek(w, s) == w - s + 7;
    }
  }

  /** A week runs seven days: its last day is six days after its first. */
  lemma WeekSpansSixDays(dt: DateTime, s: DayOfWeek)
    requires dt.day >= DaysIntoWeek(DayOfWeekOf(dt), s)
    requires dt.day + DaysIntoWeek(WeekEnd(s), DayOfWeekOf(dt)) < DaysTo10000
    ensures EndOfWeek(dt, s).day == StartOfWeek(dt, s).day + 6
  {
    WeekDistances(DayOfWeekOf(dt), s);
  }

  /** Without a start day, weeks run from Sunday to Saturday. */
  lemma WeekDefaultsToSunday(dt: DateTime)
    requires dt.day >= DaysIntoWeek(DayOfWeekOf(dt), Sunday)
    requires dt.day + DaysIntoWeek(Saturday, DayOfWeekOf(dt)) < DaysTo10000
    ensures DayOfWeekOf(StartOfWeek(dt)) == Sunday
    ensures DayOfWeekOf(EndOfWeek(dt)) == Saturday
  {
  }

  // ---------------------------------------------------------------------
  // Next and previous week day

  /** The step NextWeekDay takes: three days from Friday, two from Saturday,
      one otherwise. */
  function DaysToNextWeekDay(dt: DateTime): int {
    if DayOfWeekOf(dt) == Friday then 3 else if DayOfWeekOf(dt) == Saturday then 2 else 1
  }

  /** The step PreviousWeekDay takes back: three days from Monday, two from
      Sunday, one otherwise. */
  function DaysFromPreviousWeekDay(dt: DateTime): int {
    if DayOfWeekOf(dt) == Monday then 3 else if DayOfWeekOf(dt) == Sunday then 2 else 1
  }

  /** The same time of day on the first Monday-to-Friday day after `dt`. */
  function NextWeekDay(dt: DateTime): (r: DateTime)
    requires dt.day + DaysToNextWeekDay(dt) < DaysTo10000
    ensures 1 <= r.day - dt.day <= 3 && r.tick == dt.tick
    ensures IsWeekDay(r)
    ensures forall n :: dt.day < n < r.day ==> WeekendDay(n)
  {
    NextWeekDayGap(dt.day);
    AddDays(dt, DaysToNextWeekDay(dt))
  }

  /** The same time of day on the last Monday-to-Friday day before `dt`. */
  function PreviousWeekDay(dt: DateTime): (r: DateTime)
    requires dt.day - DaysFromPreviousWeekDay(dt) >= 0
    ensures 1 <= dt.day - r.day <= 3 && r.tick == dt.tick
    ensures IsWeekDay(r)
    ensures forall n :: r.day < n < dt.day ==> WeekendDay(n)
  {
    PreviousWeekDayGap(dt.day);
    AddDays(dt, -DaysFromPreviousWeekDay(dt))
  }

  /** From day `d`, the step NextWeekDay takes lands on a week day and passes
      only weekend days. */
  lemma NextWeekDayGap(d: int)
    ensures var w := (d + 1) % 7;
            var k := if w == Friday then 3 else if w == Saturday then 2 else 1;
            (d + k) % 7 < 5 && forall n :: d < n < d + k ==> WeekendDay(n)
  {
    var q, r := d / 7, d % 7;
    assert d == 7 * q + r;
  }

  /** From day `d`, the step PreviousWeekDay takes lands on a week day and
      passes only weekend days. */
  lemma PreviousWeekDayGap(d: int)
    ensures var w := (d + 1) % 7;
            var k := if w == Monday then 3 else if w == Sunday then 2 else 1;
            (d - k) % 7 < 5 && forall n :: d - k < n < d ==> WeekendDay(n)
  {
    var q, r := d / 7, d % 7;
    assert d == 7 * q + r;
  }
}

=== FILE: http_request_extensions.dfy ===
/** HttpRequestExtensions: the hosting root URL, a header lookup, and the
    client IP address of a request.

    A request is abstracted as its scheme, its host (with port, as
    `HostString.Value` gives it), its headers in enumeration order, and the
    remote address of the connection as text when there is one. */
module HttpRequestExtensions {
  import opened Wrappers
  import opened Strings

  /** A header and its values (a StringValues). */
  datatype Header = Header(name: string, values: seq<string>)

  datatype Request = Request(
    scheme: string,
    host: string,
    headers: seq<Header>,
    remoteIpAddress: Option<string>)

  const SchemeSeparator: string := "://"
  const ForwardedHeaderName: string := "X-FORWARDED-FOR"
  const IPv6Loopback: string := "::1"
  const IPv4Loopback: string := "127.0.0.1"

  // ---------------------------------------------------------------------
  // Hosting root

  /** `$"{request.Scheme}://{request.Host.Value}"`. */
  function GetFullHostingUrlRoot(request: Request): (r: string)
    ensures StartsWith(r, request.scheme + SchemeSeparator)
    ensures |r| == |request.scheme| + |SchemeSeparator| + |request.host|
    ensures EndsWith(r, request.host)
  {
    request.scheme + SchemeSeparator + request.host
  }

  /** The root URL can be taken apart again: the scheme is the text before the
      first colon, and the host follows the separator. */
  lemma HostingUrlRootSplits(request: Request)
    requires ':' !in request.scheme
    ensures var r := GetFullHostingUrlRoot(request);
            && BeforeFirst(r, ':') == request.scheme
            && r[|request.scheme| + |SchemeSeparator|..] == request.host
  {
    var r := GetFullHostingUrlRoot(request);
    assert r[|request.scheme|] == ':';
    assert r[..|request.scheme|] == request.scheme;
  }

  // ---------------------------------------------------------------------
  // Header lookup

  /** `Headers.FirstOrDefault(x => x.Key == key)`: the position of the first
      header, in enumeration order, whose name is exactly `key`. */
  function FindHeader(headers: seq<Header>, key: string): (r: Option<nat>)
    ensures r.None? <==> forall i :: 0 <= i < |headers| ==> headers[i].name != key
    ensures r.Some? ==> r.value < |headers| && headers[r.value].name == key
    ensures r.Some? ==> forall j :: 0 <= j < r.value ==> headers[j].name != key
    decreases |headers|
  {
    if |headers| == 0 then None
    else if headers[0].name == key then Some(0)
    else
      match FindHeader(headers[1..], key)
      case None => None
      case Some(i) => Some(i + 1)
  }

  /** `.Value.FirstOrDefault()`: the first value of that header; None (null)
      when no header has the name or the header has no values. */
  function GetHeader(request: Request, key: string): (r: Option<string>)
    ensures r.Some? ==> exists i :: 0 <= i < |request.headers| && request.headers[i].name == key
                          && |request.headers[i].values| > 0 && request.headers[i].values[0] == r.value
    ensures (forall i :: 0 <= i < |request.headers| ==> request.headers[i].name != key) ==> r.None?
    ensures forall i :: 0 <= i < |request.headers| && request.headers[i].name == key
                        && (forall j :: 0 <= j < i ==> request.headers[j].name != key) ==>
              r == (if |request.headers[i].values| == 0 then None else Some(request.headers[i].values[0]))
  {
    match FindHeader(request.headers, key)
    case None => None
    case Some(i) =>
      var h := request.headers[i];
      if |h.values| == 0 then None else Some(h.values[0])
  }

  /** Only the first header with the name is read: headers appended after it
      change nothing. */
  lemma GetHeaderFirstWins(request: Request, key: string, later: seq<Header>)
    requires exists i :: 0 <= i < |request.headers| && request.headers[i].name == key
    ensures GetHeader(request.(headers := request.headers + later), key) == GetHeader(request, key)
  {
    FindHeaderPrefix(request.headers, later, key);
  }

  /** A name found in a sequence of headers is found at the same position
      after more headers are appended. */
  lemma {:induction false} FindHeaderPrefix(headers: seq<Header>, more: seq<Header>, key: string)
    requires exists i :: 0 <= i < |headers| && headers[i].name == key
    ensures FindHeader(headers + more, key) == FindHeader(headers, key)
    decreases |headers|
  {
    if headers[0].name != key {
      assert (headers + more)[1..] == headers[1..] + more;
      var i :| 0 <= i < |headers| && headers[i].name == key;
      assert headers[1..][i - 1].name == key;
      FindHeaderPrefix(headers[1..], more, key);
    }
  }

  // ---------------------------------------------------------------------
  // Client IP address

  /** `request.Headers[name]`: the dictionary indexer compares names ignoring
      case and gives an empty StringValues for a missing name. */
  function HeaderValues(headers: seq<Header>, name: string): (vs: seq<string>)
    ensures (forall i :: 0 <= i < |headers| ==> !EqualsIgnoreCase(headers[i].name, name)) ==> vs == []
    ensures vs != [] ==> exists i :: 0 <= i < |headers| && EqualsIgnoreCase(headers[i].name, name)
                          && headers[i].values == vs
    ensures forall i :: 0 <= i < |headers| && EqualsIgnoreCase(headers[i].name, name)
                        && (forall j :: 0 <= j < i ==> !EqualsIgnoreCase(headers[j].name, name)) ==>
              vs == headers[i].values
    decreases |headers|
  {
    if |headers| == 0 then []
    else if EqualsIgnoreCase(headers[0].name, name) then headers[0].values
    else
      var rest := HeaderValues(headers[1..], name);
      assert forall i :: 0 <= i < |headers[1..]| ==> headers[1..][i] == headers[i + 1];
      rest
  }

  /** `StringValues.IsNullOrEmpty`: no values, or a single empty one. */
  predicate IsNullOrEmptyValues(vs: seq<string>) {
    |vs| == 0 || (|vs| == 1 && vs[0] == "")
  }

  /** The address before normalisation: the first forwarded value when the
      forwarded header is not null or empty, else the remote address when
      that is present, else the empty string. */
  function CandidateAddress(request: Request): (r: string)
    ensures var fwd := HeaderValues(request.headers, ForwardedHeaderName);
            && (!IsNullOrEmptyValues(fwd) && fwd[0] != "" ==> r == fwd[0])
            && (((IsNullOrEmptyValues(fwd) || fwd[0] == "") && request.remoteIpAddress.Some?) ==>
                r == request.remoteIpAddress.value)
            && ((IsNullOrEmptyValues(fwd) || fwd[0] == "") && request.remoteIpAddress.None? ==> r == "")
  {
    var fwd := HeaderValues(request.headers, ForwardedHeaderName);
    var result := if !IsNullOrEmptyValues(fwd) then fwd[0] else "";
    if result == "" && request.remoteIpAddress.Some? then request.remoteIpAddress.value else result
  }

  /** The loopback check and the port removal applied to an address. */
  function NormalizeAddress(result: string): (r: string)
    ensures ':' !in r
    ensures EqualsIgnoreCase(result, IPv6Loopback) ==> r == IPv4Loopback
    ensures !EqualsIgnoreCase(result, IPv6Loopback) ==> r == BeforeFirst(result, ':')
  {
    var mapped := if EqualsIgnoreCase(result, IPv6Loopback) then IPv4Loopback else result;
    if mapped != "" then BeforeFirst(mapped, ':') else mapped
  }

  /** `GetIPAddress`: the forwarded address or the remote address, with the
      IPv6 loopback read as the IPv4 one and everything from the first colon
      on removed. */
  function GetIPAddress(request: Request): (r: string)
    ensures ':' !in r
    ensures StartsWith(CandidateAddress(request), r) || r == IPv4Loopback
  {
    NormalizeAddress(CandidateAddress(request))
  }

  /** The loopback check compares a text without letters, so ignoring case is
      plain equality. */
  lemma LoopbackIsExact(s: string)
    ensures EqualsIgnoreCase(s, IPv6Loopback) <==> s == IPv6Loopback
  {
    EqualsIgnoreCaseNoLetters(s, IPv6Loopback);
  }

  /** With a forwarded value present, the result is that value up to its first
      colon (the IPv6 loopback excepted). */
  lemma GetIPAddressForwarded(request: Request)
    requires var fwd := HeaderValues(request.headers, ForwardedHeaderName);
             !IsNullOrEmptyValues(fwd) && fwd[0] != "" && fwd[0] != IPv6Loopback
    ensures GetIPAddress(request) == BeforeFirst(HeaderValues(request.headers, ForwardedHeaderName)[0], ':')
  {
    LoopbackIsExact(HeaderValues(request.headers, ForwardedHeaderName)[0]);
  }

  /** With no usable forwarded value, the remote address is used, read the
      same way. */
  lemma GetIPAddressRemote(request: Request, address: string)
    requires var fwd := HeaderValues(request.headers, ForwardedHeaderName);
             IsNullOrEmptyValues(fwd) || fwd[0] == ""
    requires request.remoteIpAddress == Some(address) && address != IPv6Loopback
    ensures GetIPAddress(request) == BeforeFirst(address, ':')
  {
    LoopbackIsExact(address);
  }

  /** With neither a forwarded value nor a remote address, the result is empty. */
  lemma GetIPAddressNone(request: Request)
    requires var fwd := HeaderValues(request.headers, ForwardedHeaderName);
             IsNullOrEmptyValues(fwd) || fwd[0] == ""
    requires request.remoteIpAddress.None?
    ensures GetIPAddress(request) == ""
  {
  }

  /** The IPv6 loopback, forwarded or remote, reads as the IPv4 loopback. */
  lemma GetIPAddressLoopback(request: Request)
    requires CandidateAddress(request) == IPv6Loopback
    ensures GetIPAddress(request) == IPv4Loopback
  {
    LoopbackIsExact(IPv6Loopback);
  }

  /** The header indexer ignores case: a lower-case forwarded header is read,
      and its port is removed. */
  lemma ForwardedHeaderIgnoresCase()
    ensures GetIPAddress(Request("https", "example.org", [Header("x-forwarded-for", ["10.0.0.7:8080"])], None))
              == "10.0.0.7"
  {
    var h := Header("x-forwarded-for", ["10.0.0.7:8080"]);
    LowerCaseForwardedName();
    assert HeaderValues([h], ForwardedHeaderName) == ["10.0.0.7:8080"];
    assert CandidateAddress(Request("https", "example.org", [h], None)) == "10.0.0.7:8080";
    LoopbackIsExact("10.0.0.7:8080");
    BeforeFirstAt("10.0.0.7:8080", ':', 8);
    assert "10.0.0.7:8080"[..8] == "10.0.0.7";
  }

  /** The forwarded header name in lower case matches the indexer's key. */
  lemma LowerCaseForwardedName()
    ensures EqualsIgnoreCase("x-forwarded-for", ForwardedHeaderName)
  {
    var a: string := "x-forwarded-for";
    forall i | 0 <= i < |a|
      ensures ToUpperAscii(a[i]) == ToUpperAscii(ForwardedHeaderName[i])
    {
    }
  }

  /** Cutting at the first colon also cuts an IPv6 address that is not the
      loopback: "2001:db8::1" from the connection reads as "2001". */
  lemma IPv6RemoteAddressIsCut()
    ensures GetIPAddress(Request("https", "example.org", [], Some("2001:db8::1"))) == "2001"
  {
    LoopbackIsExact("2001:db8::1");
    BeforeFirstAt("2001:db8::1", ':', 4);
    assert "2001:db8::1"[..4] == "2001";
  }
}

=== FILE: integer_extensions.dfy ===
/** IntegerExtensions.IsInRange: an inclusive range test whose two bounds may be
    given in either order. The C# arguments are 32-bit, but the test only
    compares them, so unbounded integers behave the same. */
module IntegerExtensions {

  function IsInRange(checkVal: int, value1: int, value2: int): (r: bool)
    ensures value1 <= value2 ==> (r <==> value1 <= checkVal <= value2)
    ensures value2 < value1 ==> (r <==> value2 <= checkVal <= value1)
  {
    if value1 <= value2 then checkVal >= value1 && checkVal <= value2
    else checkVal >= value2 && checkVal <= value1
  }

  function Min(a: int, b: int): int { if a <= b then a else b }
  function Max(a: int, b: int): int { if a <= b then b else a }

  /** The test is the interval between the smaller and the larger bound. */
  lemma InRangeIsMinMax(x: int, a: int, b: int)
    ensures IsInRange(x, a, b) <==> Min(a, b) <= x <= Max(a, b)
  {
  }

  /** Swapping the bounds never changes the answer. */
  lemma InRangeSymmetric(x: int, a: int, b: int)
    ensures IsInRange(x, a, b) == IsInRange(x, b, a)
  {
  }

  /** Both bounds belong to the range. */
  lemma InRangeBoundsInclusive(a: int, b: int)
    ensures IsInRange(a, a, b) && IsInRange(b, a, b)
  {
  }

  /** A range with equal bounds holds exactly that value. */
  lemma InRangeDegenerate(x: int, a: int)
    ensures IsInRange(x, a, a) <==> x == a
  {
  }
}

=== FILE: path_helper.dfy ===
/** PathHelper: a trailing separator, the direction of separators, and the
    removal of a root prefix, on path strings. */
module PathHelper {
  import opened Strings

  datatype SlashDirection = Forward | Back

  /** The direction EnsureTrailingSlash uses when the caller names none. */
  const DefaultDirection: SlashDirection := Back

  /** The separator a direction stands for: `\` for Back, `/` for Forward. */
  function Slash(direction: SlashDirection): char {
    if direction == Back then '\\' else '/'
  }

  /** The separator of the other direction. */
  function OtherSlash(direction: SlashDirection): char {
    if direction == Back then '/' else '\\'
  }

  /** A blank path is returned as it is; otherwise the separator is appended
      unless the path already ends with it. */
  function EnsureTrailingSlash(path: string, direction: SlashDirection := DefaultDirection): (r: string)
    ensures IsBlank(path) ==> r == path
    ensures !IsBlank(path) ==> EndsWith(r, [Slash(direction)])
    ensures r == path || r == path + [Slash(direction)]
    ensures EndsWith(path, [Slash(direction)]) ==> r == path
  {
    if IsBlank(path) then path
    else if EndsWith(path, [Slash(direction)]) then path
    else path + [Slash(direction)]
  }

  /** Without a direction, the separator is a backslash. */
  lemma EnsureTrailingSlashDefault()
    ensures EnsureTrailingSlash("C:\\temp") == "C:\\temp\\"
    ensures EnsureTrailingSlash("C:\\temp\\") == "C:\\temp\\"
    ensures EnsureTrailingSlash("  ") == "  "
  {
    assert !IsWhiteSpace("C:\\temp"[0]);
    assert !IsWhiteSpace("C:\\temp\\"[0]);
  }

  /** A separator is appended exactly when the path is not blank and does not
      already end with one. */
  lemma EnsureTrailingSlashAppends(path: string, direction: SlashDirection)
    ensures (EnsureTrailingSlash(path, direction) == path + [Slash(direction)]) <==>
            (!IsBlank(path) && !EndsWith(path, [Slash(direction)]))
  {
    var r := EnsureTrailingSlash(path, direction);
    if r == path + [Slash(direction)] {
      assert |r| != |path|;
    }
  }

  /** Appending a separator to a path that is not blank keeps it not blank. */
  lemma NotBlankExtended(path: string, tail: string)
    requires !IsBlank(path)
    ensures !IsBlank(path + tail)
  {
    var i :| 0 <= i < |path| && !IsWhiteSpace(path[i]);
    assert (path + tail)[i] == path[i];
  }

  /** Applying EnsureTrailingSlash twice is applying it once. */
  lemma EnsureTrailingSlashIdempotent(path: string, direction: SlashDirection)
    ensures var once := EnsureTrailingSlash(path, direction);
            EnsureTrailingSlash(once, direction) == once
  {
    var once := EnsureTrailingSlash(path, direction);
    if !IsBlank(path) {
      NotBlankExtended(path, once[|path|..]);
      assert path + once[|path|..] == once;
    }
  }

  /** `Regex.Replace(fileWithRoot, "^" + Regex.Escape(root), "")`: one leading
      literal copy of `root` is removed; a blank root removes nothing. */
  function RemoveRoot(fileWithRoot: string, root: string): (r: string)
    ensures IsBlank(root) ==> r == fileWithRoot
    ensures !IsBlank(root) && StartsWith(fileWithRoot, root) ==> root + r == fileWithRoot
    ensures !StartsWith(fileWithRoot, root) ==> r == fileWithRoot
  {
    if IsBlank(root) then fileWithRoot
    else if StartsWith(fileWithRoot, root) then fileWithRoot[|root|..]
    else fileWithRoot
  }

  /** RemoveRoot undoes prefixing with a root that is not blank, and removes
      only one copy of it. */
  lemma RemoveRootOfPrefixed(root: string, rest: string)
    requires !IsBlank(root)
    ensures RemoveRoot(root + rest, root) == rest
  {
    assert (root + rest)[..|root|] == root;
    assert (root + rest)[|root|..] == rest;
  }

  /** Every separator of the other direction replaced by the chosen one; all
      other characters are kept in place. */
  function SwapSlashes(s: string, direction: SlashDirection): (r: string)
    ensures |r| == |s|
    ensures forall i :: 0 <= i < |s| ==>
      r[i] == (if s[i] == OtherSlash(direction) then Slash(direction) else s[i])
    decreases |s|
  {
    if |s| == 0 then s
    else
      var c := if s[0] == OtherSlash(direction) then Slash(direction) else s[0];
      [c] + SwapSlashes(s[1..], direction)
  }

  /** `Regex.Replace(path, "/", "\\")` for Back and `Regex.Replace(path, @"\\", "/")`
      for Forward; a blank path is returned as it is. */
  function SetSlashDirection(path: string, direction: SlashDirection): (r: string)
    ensures IsBlank(path) ==> r == path
    ensures |r| == |path|
    ensures forall i :: 0 <= i < |path| ==>
      r[i] == (if path[i] == OtherSlash(direction) then Slash(direction) else path[i])
  {
    if IsBlank(path) then path else SwapSlashes(path, direction)
  }

  /** After SetSlashDirection no separator of the other direction remains. */
  lemma SetSlashDirectionLeavesNoOtherSlash(path: string, direction: SlashDirection)
    ensures OtherSlash(direction) !in SetSlashDirection(path, direction)
  {
  }

  /** Setting the same direction twice is setting it once. */
  lemma SetSlashDirectionIdempotent(path: string, direction: SlashDirection)
    ensures var once := SetSlashDirection(path, direction);
            SetSlashDirection(once, direction) == once
  {
    var once := SetSlashDirection(path, direction);
    var twice := SetSlashDirection(once, direction);
    assert |twice| == |once|;
    forall i | 0 <= i < |once|
      ensures twice[i] == once[i]
    {
      assert once[i] == (if path[i] == OtherSlash(direction) then Slash(direction) else path[i]);
    }
  }

  /** Only the last direction set matters. */
  lemma SetSlashDirectionLastWins(path: string, first: SlashDirection, last: SlashDirection)
    ensures SetSlashDirection(SetSlashDirection(path, first), last) == SetSlashDirection(path, last)
  {
    var mid := SetSlashDirection(path, first);
    var a := SetSlashDirection(mid, last);
    var b := SetSlashDirection(path, last);
    forall i | 0 <= i < |path|
      ensures a[i] == b[i]
    {
      assert mid[i] == (if path[i] == OtherSlash(first) then Slash(first) else path[i]);
    }
  }
}

=== FILE: string_extensions.dfy ===
/** StringExtensions.Truncate: cut a string to a maximum length, marking the
    cut with a suffix. Lengths are those of .NET strings, counted in UTF-16
    code units, so the text is a sequence of `CodeUnit`. */
module StringExtensions {
  import opened Strings

  /** The suffix Truncate appends when the caller names none: "...". */
  const DefaultSuffix: seq<CodeUnit> := [0x2E, 0x2E, 0x2E]

  /** A string no longer than `maxChars` is returned as it is; a longer one
      keeps its first `maxChars - |suffix|` code units followed by the suffix.
      `Substring` throws when that count is negative, so the caller must leave
      room for the suffix whenever a cut happens. */
  function Truncate(value: seq<CodeUnit>, maxChars: int, postTruncateString: seq<CodeUnit> := DefaultSuffix): (r: seq<CodeUnit>)
    requires |value| <= maxChars || |postTruncateString| <= maxChars
    ensures |value| <= maxChars ==> r == value
    ensures |value| > maxChars ==>
      && |r| == maxChars
      && EndsWith(r, postTruncateString)
      && StartsWith(value, r[..maxChars - |postTruncateString|])
  {
    if |value| <= maxChars then value
    else value[..maxChars - |postTruncateString|] + postTruncateString
  }

  /** The result never exceeds the longer of the input and the limit, and is
      either the input or a prefix of it followed by the suffix. */
  lemma TruncateShape(value: seq<CodeUnit>, maxChars: int, postTruncateString: seq<CodeUnit>)
    requires |value| <= maxChars || |postTruncateString| <= maxChars
    ensures var r := Truncate(value, maxChars, postTruncateString);
            && (|r| <= |value| || |r| <= maxChars)
            && (r == value || exists k :: 0 <= k <= |value| && r == value[..k] + postTruncateString)
  {
    var r := Truncate(value, maxChars, postTruncateString);
    if |value| > maxChars {
      var k := maxChars - |postTruncateString|;
      assert r == value[..k] + postTruncateString;
    }
  }

  /** The result never exceeds `maxChars` whenever a cut can be made, so
      truncating it again changes nothing. */
  lemma TruncateIdempotent(value: seq<CodeUnit>, maxChars: int, postTruncateString: seq<CodeUnit>)
    requires |postTruncateString| <= maxChars
    ensures var once := Truncate(value, maxChars, postTruncateString);
            |once| <= maxChars && Truncate(once, maxChars, postTruncateString) == once
  {
  }

  /** A cut string can be told apart from an uncut one: it is exactly
      `maxChars` long, longer inputs keep their first code units, and the
      suffix is at the end. */
  lemma TruncateKeepsPrefix(value: seq<CodeUnit>, maxChars: int, postTruncateString: seq<CodeUnit>, i: int)
    requires |postTruncateString| <= maxChars < |value|
    requires 0 <= i < maxChars - |postTruncateString|
    ensures Truncate(value, maxChars, postTruncateString)[i] == value[i]
  {
  }

  /** With the default suffix, "abcdef" (code units 0x61 to 0x66) cut to
      five becomes "ab...". */
  lemma TruncateDefaultSuffix()
    ensures Truncate([0x61, 0x62, 0x63, 0x64, 0x65, 0x66], 5) == [0x61, 0x62, 0x2E, 0x2E, 0x2E]
  {
  }

  /** The cut counts code units, not characters: a character outside the
      Basic Multilingual Plane takes two, and a cut between them leaves a lone
      high surrogate. "a" followed by U+1F600 is three code units long, so a
      limit of two cuts it after the high surrogate. */
  lemma TruncateSplitsSurrogatePair()
    ensures ToUtf16("a\U{1F600}") == [0x61, 0xD83D, 0xDE00]
    ensures Truncate(ToUtf16("a\U{1F600}"), 2, []) == [0x61, 0xD83D]
  {
    assert EncodeChar('\U{1F600}') == [0xD83D, 0xDE00];
    assert ToUtf16("a\U{1F600}") == EncodeChar('a') + ToUtf16("\U{1F600}");
  }
}

=== FILE: strings.dfy ===
/** The few members of System.String and System.Char that the helpers rely on.
    A Dafny `string` is a sequence of Unicode scalar values; a .NET string is
    a sequence of UTF-16 code units, which `CodeUnit` and `ToUtf16` model for
    the one helper whose result depends on lengths. Comparisons are ordinal. */
module Strings {

  /** A UTF-16 code unit, the element `string.Length` and `Substring` count. */
  newtype CodeUnit = u: int | 0 <= u < 0x1_0000

  /** The UTF-16 encoding of one scalar value: itself below U+10000, otherwise
      a high surrogate followed by a low one that together give it back. */
  function EncodeChar(c: char): (r: seq<CodeUnit>)
    ensures c as int < 0x1_0000 ==> r == [c as int as CodeUnit]
    ensures c as int >= 0x1_0000 ==>
      && |r| == 2
      && 0xD800 <= r[0] as int < 0xDC00 && 0xDC00 <= r[1] as int < 0xE000
      && 0x1_0000 + (r[0] as int - 0xD800) * 0x400 + (r[1] as int - 0xDC00) == c as int
  {
    var v := c as int;
    if v < 0x1_0000 then [v as CodeUnit]
    else
      var w := v - 0x1_0000;
      [(0xD800 + w / 0x400) as CodeUnit, (0xDC00 + w % 0x400) as CodeUnit]
  }

  /** The UTF-16 form of a string: never shorter than the string, and the same
      values position by position when every character is below U+10000. */
  function ToUtf16(s: string): (r: seq<CodeUnit>)
    ensures |r| >= |s|
    ensures (forall i :: 0 <= i < |s| ==> s[i] as int < 0x1_0000) ==>
      |r| == |s| && forall i :: 0 <= i < |s| ==> r[i] as int == s[i] as int
    decreases |s|
  {
    if |s| == 0 then []
    else
      var rest := ToUtf16(s[1..]);
      assert forall i :: 0 <= i < |s[1..]| ==> s[1..][i] == s[i + 1];
      EncodeChar(s[0]) + rest
  }

  /** `char.IsWhiteSpace`: the Unicode space separators, line and paragraph
      separators, and the control characters U+0009..U+000D and U+0085. */
  predicate IsWhiteSpace(c: char) {
    || ('\U{0009}' <= c <= '\U{000D}')
    || c == ' ' || c == '\U{0085}' || c == '\U{00A0}' || c == '\U{1680}'
    || ('\U{2000}' <= c <= '\U{200A}')
    || c == '\U{2028}' || c == '\U{2029}' || c == '\U{202F}' || c == '\U{205F}' || c == '\U{3000}'
  }

  /** `string.IsNullOrWhiteSpace` for a non-null string: empty or all white space. */
  predicate IsBlank(s: string) {
    forall i :: 0 <= i < |s| ==> IsWhiteSpace(s[i])
  }

  predicate StartsWith<T(==)>(s: seq<T>, prefix: seq<T>) {
    |prefix| <= |s| && s[..|prefix|] == prefix
  }

  predicate EndsWith<T(==)>(s: seq<T>, suffix: seq<T>) {
    |suffix| <= |s| && s[|s| - |suffix|..] == suffix
  }

  /** `s` holds `sub` at position `i`. */
  predicate OccursAt(s: string, sub: string, i: int) {
    0 <= i && i + |sub| <= |s| && s[i..i + |sub|] == sub
  }

  predicate Contains(s: string, sub: string) {
    exists i | 0 <= i <= |s| :: OccursAt(s, sub, i)
  }

  /** `String.Replace(oldValue, newValue)`: every non-overlapping occurrence of
      `oldValue`, scanning from the left, is replaced by `newValue`. */
  function Replace(s: string, oldValue: string, newValue: string): (r: string)
    requires |oldValue| > 0
    ensures !Contains(s, oldValue) ==> r == s
    ensures StartsWith(s, oldValue) ==> StartsWith(r, newValue)
    decreases |s|
  {
    if |s| < |oldValue| then s
    else if s[..|oldValue|] == oldValue then
      assert OccursAt(s, oldValue, 0);
      newValue + Replace(s[|oldValue|..], oldValue, newValue)
    else
      ContainsTail(s, oldValue);
      [s[0]] + Replace(s[1..], oldValue, newValue)
  }

  /** The leftmost rule: when no occurrence starts inside `p`, `p` is copied,
      the occurrence after it is replaced, and the scan goes on after that
      occurrence, so overlapping occurrences are not replaced. */
  lemma {:induction false} ReplaceLeftmost(p: string, q: string, oldValue: string, newValue: string)
    requires |oldValue| > 0
    requires forall i :: 0 <= i < |p| ==> !OccursAt(p + oldValue + q, oldValue, i)
    ensures Replace(p + oldValue + q, oldValue, newValue) == p + newValue + Replace(q, oldValue, newValue)
    decreases |p|
  {
    if |p| == 0 {
      assert p + oldValue + q == oldValue + q;
      ReplaceAtStart(oldValue, q, newValue);
      assert p + newValue == newValue;
    } else {
      var s := p + oldValue + q;
      ReplaceCopiesFirst(s, oldValue, newValue);
      NoOccurrenceInTail(s, p, q, oldValue);
      ReplaceLeftmost(p[1..], q, oldValue, newValue);
      assert [s[0]] + p[1..] == p;
      ConsRegroup(s[0], p[1..], newValue, Replace(q, oldValue, newValue));
    }
  }

  /** Putting an element in front of a three-part sequence. */
  lemma ConsRegroup<T>(x: T, a: seq<T>, b: seq<T>, c: seq<T>)
    ensures [x] + (a + b + c) == [x] + a + b + c
  {
  }

  /** An occurrence at position 0 is replaced and the scan resumes after it. */
  lemma ReplaceAtStart(oldValue: string, q: string, newValue: string)
    requires |oldValue| > 0
    ensures Replace(oldValue + q, oldValue, newValue) == newValue + Replace(q, oldValue, newValue)
  {
    var s := oldValue + q;
    assert s[..|oldValue|] == oldValue;
    assert s[|oldValue|..] == q;
  }

  /** Without an occurrence at position 0, Replace copies the first character. */
  lemma ReplaceCopiesFirst(s: string, oldValue: string, newValue: string)
    requires |oldValue| > 0 && |s| >= |oldValue| && !OccursAt(s, oldValue, 0)
    ensures Replace(s, oldValue, newValue) == [s[0]] + Replace(s[1..], oldValue, newValue)
  {
    assert s[..|oldValue|] != oldValue;
  }

  /** Dropping the first character of `p + oldValue + q` keeps `p`'s lack of
      occurrences, shifted by one. */
  lemma NoOccurrenceInTail(s: string, p: string, q: string, oldValue: string)
    requires |p| > 0 && s == p + oldValue + q
    requires forall i :: 0 <= i < |p| ==> !OccursAt(s, oldValue, i)
    ensures s[1..] == p[1..] + oldValue + q
    ensures forall i :: 0 <= i < |p[1..]| ==> !OccursAt(s[1..], oldValue, i)
  {
    var t := s[1..];
    assert t == p[1..] + oldValue + q;
    forall i | 0 <= i < |p[1..]|
      ensures !OccursAt(t, oldValue, i)
    {
      assert !OccursAt(s, oldValue, i + 1);
      assert t[i..i + |oldValue|] == s[i + 1..i + 1 + |oldValue|];
    }
  }

  /** An occurrence in the tail of `s` is an occurrence in `s`. */
  lemma ContainsTail(s: string, sub: string)
    requires |s| > 0
    ensures Contains(s[1..], sub) ==> Contains(s, sub)
  {
    if Contains(s[1..], sub) {
      var i :| 0 <= i <= |s[1..]| && OccursAt(s[1..], sub, i);
      assert s[1..][i..i + |sub|] == s[i + 1..i + 1 + |sub|];
      assert OccursAt(s, sub, i + 1);
    }
  }

  /** ASCII upper-casing, the part of ordinal case-insensitive comparison that
      HTTP header names and IP literals use. */
  function ToUpperAscii(c: char): (u: char)
    ensures 'a' <= c <= 'z' ==> u as int == c as int - 32
    ensures !('a' <= c <= 'z') ==> u == c
  {
    if 'a' <= c <= 'z' then (c as int - 32) as char else c
  }

  predicate EqualsIgnoreCase(a: string, b: string) {
    |a| == |b| && forall i :: 0 <= i < |a| ==> ToUpperAscii(a[i]) == ToUpperAscii(b[i])
  }

  /** A string with no letters equals, ignoring case, only itself. */
  lemma EqualsIgnoreCaseNoLetters(a: string, b: string)
    requires forall i :: 0 <= i < |b| ==> !('a' <= b[i] <= 'z') && !('A' <= b[i] <= 'Z')
    ensures EqualsIgnoreCase(a, b) <==> a == b
  {
    if EqualsIgnoreCase(a, b) {
      forall i | 0 <= i < |a|
        ensures a[i] == b[i]
      {
        assert ToUpperAscii(a[i]) == ToUpperAscii(b[i]);
      }
    }
  }

  /** `s.Split(c).FirstOrDefault()`: the text before the first `c`, or all of
      `s` when it holds none. */
  function BeforeFirst(s: string, c: char): (r: string)
    ensures StartsWith(s, r)
    ensures c !in r
    ensures |r| == |s| || s[|r|] == c
    decreases |s|
  {
    if |s| == 0 then s
    else if s[0] == c then ""
    else [s[0]] + BeforeFirst(s[1..], c)
  }

  /** BeforeFirst stops at the first occurrence: when `s[k]` is the first
      `c`, the result is the `k` characters before it. */
  lemma {:induction false} BeforeFirstAt(s: string, c: char, k: int)
    requires 0 <= k < |s| && s[k] == c && c !in s[..k]
    ensures BeforeFirst(s, c) == s[..k]
    decreases k
  {
    if k > 0 {
      assert s[0] == s[..k][0];
      assert s[1..][..k - 1] == s[1..k];
      BeforeFirstAt(s[1..], c, k - 1);
    }
  }
}

=== FILE: wrappers.dfy ===
/** Optional values, standing in for the places where the C# code returns or
    accepts `null` (a missing header value, an absent remote address) and for
    the middleware's exception. */
module Wrappers {

  datatype Option<+T> = None | Some(value: T)
}
